=== FILE: README.md ===
# IVF coach bot: a Dafny model of its core

The system is a Telegram bot that coaches people through IVF. A user is
onboarded by a small step machine:

- step 0: awaiting the user's name;
- step 1: awaiting how many reminders a day;
- step 2: free chat with a generative model;
- step 3: a "morning journal" dialog that ends in a PDF.

Choosing a reminder count replaces the user's batch of scheduled reminders
with a new one: seven hourly rounds of `count` reminders, in the seven hours
after the current hour, `7 * count` in all. Each reminder is a Firestore
record plus a Cloud Tasks request that later posts the text to Telegram. Every
generative-model call except the journal's answer turn is wrapped in a bounded
retry helper.

This project models that core as pure functions over immutable data and
proves what the code promises. The Firestore collections become three maps.
Gemini and the Google Docs PDF export become parameters: a scripted outcome
per invocation. Cloud Tasks and Telegram calls are recorded as the requests
and messages they send, and never fail. Handling one update returns:

- the store afterwards;
- the messages sent, in order;
- the reminder tasks cancelled and requested;
- the coach operations started;
- how the handler's promise settles.

Modules, one per part of the program:

- `Base`: `Option` and `Result`.
- `Retry` (src/utils.ts): `retry(fn, retriesLeft, interval)` over a script
  `nat -> Result<T>`. Invocation `k` settles as `script(k)`. A run records its
  outcome, the number of invocations and the waits between them.
- `Store` (src/database.ts): profiles, chat transcripts and reminder records.
  - Transcripts are keyed by the flattened string `{user}-{topic}`, as in
    Firestore.
  - `Wf` says every reminder record carries the id it is stored under.
- `Schedule`: the round/slot loop of `createReminders` on epoch milliseconds.
  JavaScript's mutable `Date` and its UTC setters are written out, including
  the mutation of one `Date` across the slots of a round. The loop calls its
  rounds days, and so does the model (`day`, `Days`), but each round is one
  hour after the previous one.
- `Response`: the coach's `Response` union (text, video, file) and the
  Telegram calls src/index.ts makes directly.
- `Coach` (src/coach.ts): `chat`, `sayHello`, `createReminder`,
  `createReminders` (with `scheduleReminders`) and
  `askQuestionForMorningJournal`.
- `Text`: the JavaScript `startsWith`, `split` and `trim` the handlers use.
- `Engine` (src/index.ts): `handleMessage`, `handleCommand` and
  `handleCallback`, as one transition from the store and an update to a `Turn`.

Behaviour of the code that the model keeps:

- `chat` makes up to 4 invocations (`retry(…, 3, 5000)`);
- step 0 sends five messages, the fifth carrying the 1/2/3 buttons;
- an accepted reminder count leaves the user at step 1, and later texts are
  read as counts again;
- a callback's count is not range-checked at all;
- with 4 reminders a day, the last reminder of each round fires together with
  the first of the next round.

## Model

| member | source | states |
|---|---|---|
| `Retry.Retry` | src/utils.ts:1-17 | At most `retriesLeft + 1` invocations (exactly one when `retriesLeft <= 0`), with one wait of `interval` before each retry. Every invocation before the last failed. The promise settles with the last invocation's outcome, and a rejection comes only after the whole budget is used. |
| `Retry.SettlesOnFirstSuccess` | src/utils.ts:3-11 | When invocation `k` is the first success and is within the budget, `retry` resolves with it after exactly `k + 1` invocations. Conversely, a resolved run ends on the first success. |
| `Retry.FirstSuccessIsFinal` | src/utils.ts:3-4 | A first invocation that succeeds is the only one, with no wait. |
| `Retry.SucceedsAfterFailures` | src/utils.ts:5-11 | `K <= retriesLeft` failures followed by a success give that success after `K + 1` invocations. |
| `Retry.RejectsWhenExhausted` | src/utils.ts:5-14 | When every invocation of the budget fails, `retry` rejects with the last error after exactly `retriesLeft + 1` invocations. |
| `Retry.NoRetryWithoutBudget` | src/utils.ts:6-14 | With `retriesLeft <= 0` there is exactly one invocation and no wait. |
| `Store.GetUser` | src/database.ts:18-24 | The profile is returned exactly when a document exists for the user, and `null` otherwise. |
| `Store.CreateUser` | src/database.ts:9-16 | The profile is written with step 0 under the user's id. No other profile, transcript or reminder changes. |
| `Store.UpdateUser` | src/database.ts:26-28 | It fails exactly when the profile is missing. Otherwise it changes exactly the supplied fields of that one profile and nothing else. |
| `Store.UserRoundTrip` | src/database.ts:9-24 | `getUser` finds nothing in an empty store. After `createUser` it finds the profile with the given name at step 0. |
| `Store.HistoryKeyInjective` | src/database.ts:29-36 | For the topics `chat` and `morning-journal`, two flattened transcript keys are equal iff they are for the same user and the same topic. |
| `Store.GetChatHistory` | src/database.ts:29-33 | A missing transcript reads as the empty history. The topic defaults to `chat`. |
| `Store.SetChatHistory` | src/database.ts:34-36 | The written transcript is read back. Profiles and reminders are untouched. |
| `Store.SetChatHistoryFrame` | src/database.ts:29-36 | Writing one (user, topic) transcript leaves every other (user, topic) transcript as it was. |
| `Store.GetReminders` | src/database.ts:37-40 | The result holds exactly the user's reminder records. |
| `Store.SetReminder` | src/database.ts:41-43 | The record is stored under `(user, id)`. Every other record, every profile and every transcript is unchanged. |
| `Store.DeleteReminder` | src/database.ts:44-46 | `(user, id)` is gone. Every other record is kept unchanged. |
| `Store.SetReminderRoundTrip` | src/database.ts:37-46 | A written record is listed for its user. Writing or deleting a record leaves other users' lists as they were. |
| `Schedule.SetUtcHours` | src/coach.ts:149 | Setting the UTC hour field moves the instant by whole hours, from the old hour field to the new one, and keeps minutes, seconds and milliseconds. For an hour from 0 to 23 the hour field becomes that hour on the same date. |
| `Schedule.SetUtcMinutes` | src/coach.ts:153 | Setting the UTC minute field moves the instant by whole minutes and keeps seconds and milliseconds. For a minute from 0 to 59 the minute field becomes that minute within the same hour. |
| `Schedule.DayStart` | src/coach.ts:147-149 | A round's `Date` is `now` moved exactly `i + 1` hours, crossing midnight when needed. The date setter is not used. |
| `Schedule.Stamp` | src/coach.ts:153-155 | The three setters put a slot on minute `20 * j`, counted from the start of the `Date`'s current hour, with zero seconds and milliseconds. |
| `Schedule.Slots` | src/coach.ts:146-156 | A batch has `7 * count` slots. |
| `Schedule.SlotsShape` | src/coach.ts:146-158 | Slot `n` is at day `n / count`, position `n % count`, and carries the content and id index `n = pos + day * count`. |
| `Schedule.SlotTimes` | src/coach.ts:146-156 | For 1 to 4 reminders a day, slot `(i, j)` is due at `now`'s hour, plus `i + 1` hours, plus `20 * j` minutes. |
| `Schedule.SlotTimesByIndex` | src/coach.ts:146-156 | For 1 to 4 reminders a day, slot `n` is due at the nominal time of round `n / count` and position `n % count`. |
| `Schedule.FourADayCollide` | src/coach.ts:146-156 | With 4 reminders a day, the fourth slot of the first round falls on the next whole hour, the same instant as the first slot of the second round. |
| `Schedule.SlotsIncreasing` | src/coach.ts:146-156 | For 1 to 3 reminders a day, slots are strictly increasing in creation order and all lie after `now`. |
| `Schedule.SlotSpacing` | src/coach.ts:150-156 | For 1 to 4 reminders a day, consecutive slots of one day are exactly 20 minutes apart. A day's first slot falls on a whole hour. |
| `Schedule.SlotsOnWholeMinutes` | src/coach.ts:154-156 | Every slot time has zero seconds and milliseconds, so the whole-second task time loses nothing. |
| `Schedule.RollOverDrift` | src/coach.ts:149-156 | With 5 or more a day, the fourth slot is at minute 60 of the first hour. Because the mutated `Date` then sits an hour later, the fifth lands one hour past its nominal time. |
| `Coach.Chat` | src/coach.ts:61-87 | The call never rejects. If the first success within the retry budget has text, its history is stored under `chat` and the reply is sent. Otherwise only the apology is sent and nothing is written. |
| `Coach.SayHello` | src/coach.ts:89-102 | The 720 × 1280 intro video is sent, then the name prompt. Nothing is stored. |
| `Coach.ReminderTexts` | src/coach.ts:104-118 | Exhausted retries and unparseable JSON both give the empty list. JSON without `messages` gives `undefined`. Otherwise the generated list is returned. |
| `Coach.ClearReminders` | src/coach.ts:121-136 | The task of every prior record of the user is cancelled and its record deleted. Other users' records are untouched, and nothing is added. |
| `Coach.ClearLeavesNone` | src/coach.ts:121-136 | In a well-formed store, the user has no records left after clearing, and the store stays well formed. |
| `Coach.CancelAndDelete` | src/coach.ts:127-136 | Cancelling and deleting id by id cancels exactly the given ids and deletes exactly the user's records under them. |
| `Coach.ClearRemindersOneByOne` | src/coach.ts:127-136 | The per-record cancel-then-delete sequence gives the same store and cancellations as clearing all at once. |
| `Coach.TaskFor` | src/coach.ts:240-261 | A slot's task has the slot's id, goes to the user, fires at the slot time rounded down to whole seconds, and carries the slot's message when there is one. |
| `Coach.Book` | src/coach.ts:157-163 | The slot loop's writes change neither profiles nor transcripts, and keep other users' records. |
| `Coach.BookContents` | src/coach.ts:146-171 | After the slot loop, each slot that has a message has its record stored under its id with its time and message. Those ids are the only keys added, and all other records are unchanged. |
| `Coach.CreateReminders` | src/coach.ts:120-177 | Messages: the confirmation and the notification nudge, then the closing text on completion. Every prior record is cancelled. `7 * count` messages are requested from the generator. An `undefined` list with a positive count rejects with the prior records cleared and nothing booked. Otherwise `7 * count` tasks are requested; task `n` carries id index `n`, slot `n`'s time in whole seconds, and `messages[n]` when it exists. |
| `Coach.SlotIds` | src/coach.ts:158 | The batch's ids `reminder-{user}-{j + i * count}-{random}` are pairwise distinct, one per slot position. The slots that have a message carry the first `min(7 * count, messages)` of them. |
| `Coach.ReplacesBatch` | src/coach.ts:120-177 | Replacement: after a completed run on a well-formed store, the user's records are exactly one per slot that has a message, the first `min(7 * count, messages)` slots, each with its slot time and message. |
| `Coach.CreateRemindersKeepsWf` | src/coach.ts:127-163 | Complete or not, the run keeps every record stored under its own id. |
| `Coach.SecondBatchReplacesFirst` | src/coach.ts:120-177 | After two runs, completed or rejected, the user's records are exactly the booked slots of the second batch (none when the second run rejects on an `undefined` list). Records of the first batch that the second did not rewrite are gone. |
| `Coach.TasksAtSlotTimes` | src/coach.ts:240-261 | Each requested task fires, in whole seconds, exactly at its slot's time. |
| `Coach.TasksFollowSlots` | src/coach.ts:146-165 | Tasks at the slot times of a 1-to-3 batch fire at their nominal times, in increasing order, after `now`. |
| `Coach.TasksAtNominalTimes` | src/coach.ts:144-170 | For 1 to 3 a day, task `n` of a completed run fires at day `n / count`, slot `n % count`: hour + `i + 1`, minute `20 * j`. Tasks fire in order, all in the future. |
| `Coach.MorningJournal` | src/coach.ts:179-227 | It returns true exactly when the user's reply is parsed as done and the PDF exports; then the question, "Here is your PDF" and the file are sent. Without a reply, the retried opening stores its history under `morning-journal`, asks, and returns false. A failed or unparseable turn rejects before any write. A failed PDF export rejects after the history is stored and the question sent, and nothing more is sent. Profiles and reminders are untouched. |
| `Text.Split` | src/index.ts:46 | `split` always yields at least one piece. |
| `Text.JoinSplit` | src/index.ts:46 | Round trip: joining the pieces of `split(sep)` with `sep` gives back the string. |
| `Text.PiecesAvoidSeparator` | src/index.ts:46 | No piece of `split(sep)` contains `sep`. |
| `Text.SplitAfter` | src/index.ts:126 | For `p + c + rest` with no `c` in `p`, the first piece is `p` and the rest come from `rest`. |
| `Text.SplitWithout` | src/index.ts:126 | A string without the separator splits into itself alone. |
| `Text.Before` | src/index.ts:126 | The text before the first occurrence of a character: a prefix free of it, followed by it unless it is the whole string. |
| `Text.FirstPieceBefore` | src/index.ts:126 | The first piece of a split on one character is the text before its first occurrence. |
| `Text.Trim` | src/index.ts:46 | The result is the string minus a white-space prefix and a white-space suffix, and neither starts nor ends with white space. |
| `Text.TrimIdempotent` | src/index.ts:46 | Trimming twice is trimming once. |
| `Engine.DisplayName` | src/index.ts:67 | `username` when present and non-empty, else `first_name` when present and non-empty, else `''`. The result is empty exactly when both are absent or empty. |
| `Engine.LoadOrCreate` | src/index.ts:64-74 | A stored profile is used as is. An absent user is created at step 0 under `username`, else `first_name`, else `''`. Nothing else changes. |
| `Engine.HandleCommand` | src/index.ts:26-54 | No command touches reminder records. |
| `Engine.HandleCallback` | src/index.ts:114-129 | A callback never changes a profile. |
| `Engine.ScheduleFor` | src/index.ts:124-127 | A started `createReminders` never makes the handler reject, and never touches profiles or transcripts. For a whole count, its effects follow the earlier messages. |
| `Engine.HandleMessage` | src/index.ts:56-112 | Exactly the sender's profile is added when absent, and no profile is removed. A text that is neither a command nor non-empty does nothing more. What each step does is stated by `Engine.NameStepAdvances`, `Engine.CountStepSchedules`, `Engine.ChatStepForwards`, `Engine.JournalStepCompletes` and `Engine.OtherwiseIdle`. |
| `Engine.ByStep` | src/index.ts:76-111 | The step dispatch never adds or removes a profile. Without non-empty text, or at a step outside 0 to 3, it does nothing. |
| `Engine.CallbackCount` | src/index.ts:126 | The callback's count is the text after `setReminder-` up to the next dash, read by `Number`, with the empty text read as 0. |
| `Engine.CommandsIgnoreStep` | src/index.ts:59-62 | A text starting with `/` bypasses the step machine. Messages, calls and outcome are the same whatever the step. |
| `Engine.UnknownUserCreated` | src/index.ts:64-74 | An unknown user is created at step 0 under their display name. Empty text leaves it at that. |
| `Engine.StartResets` | src/index.ts:41-44 | `/start` from any step sets step 0, keeps the rest of the profile, sends the video and name prompt, and touches nothing else. |
| `Engine.TalkForwards` | src/index.ts:45-47 | `/talk x` sends the trimmed text of `x` up to any later `/talk` to the chat. The profile is unchanged and the chat's reply or apology is sent. |
| `Engine.TalkExamples` | src/index.ts:45-47 | `/talk  hi ` chats with `hi`; `/talk a/talk b` chats with `a`. |
| `Engine.PdfFeatureOpensJournal` | src/index.ts:48-52 | `/pdf_feature` from any step sets step 3 and opens the journal. The opening question is sent and its history stored, or, when no parseable opening arrives, the handler rejects having sent nothing. |
| `Engine.OtherCommandsIdle` | src/index.ts:41-54 | Any other command only creates an absent user. |
| `Engine.NameStepAdvances` | src/index.ts:76-94 | At step 0 the text becomes the name and the step becomes 1. Five messages follow, the last asking for the count with buttons `setReminder-1..3`. |
| `Engine.CountCheck` | src/index.ts:96-97 | The count check passes exactly the numbers from 1 to 3, fractions such as 1.5 included. |
| `Engine.CountStepSchedules` | src/index.ts:95-102 | At step 1 a rejected count re-prompts and changes nothing. An accepted one starts `createReminders` and leaves the step at 1. For 1, 2 and 3 the effects are those of `createReminders`. |
| `Engine.ChatStepForwards` | src/index.ts:103-104 | At step 2 the text goes to the chat and the step stays. |
| `Engine.JournalStepCompletes` | src/index.ts:105-111 | At step 3 the user moves to step 2 iff the journal returns true, and otherwise stays at 3. The handler rejects iff the journal does. |
| `Engine.OtherwiseIdle` | src/index.ts:76-111 | Without text, or at a step outside 0 to 3, a message only creates an absent user. |
| `Engine.CallbackIgnored` | src/index.ts:114-129 | A callback from an unknown user, or without `setReminder-` data, changes nothing and sends nothing. |
| `Engine.CallbackSchedules` | src/index.ts:124-128 | `setReminder-d` clears the keyboard and starts `createReminders` with `Number(d)` (0 for an empty `d`), unchecked and with no step change. A whole `k` starts `createReminders(k)`; a run that completes requests `7 * k` tasks. |
| `Engine.CommandKeepsInvariants` | src/index.ts:26-54 | Commands keep every step within 0 to 3 and every reminder record under its own id. |
| `Engine.MessageKeepsInvariants` | src/index.ts:56-112 | Messages keep every step within 0 to 3 and every reminder record under its own id. |
| `Engine.CallbackKeepsInvariants` | src/index.ts:114-129 | Callbacks keep every step within 0 to 3 and every reminder record under its own id. |
| `Engine.CommandTouchesOnlySender` | src/index.ts:26-54 | A command leaves every other user's profile, transcripts and reminder records as they were. |
| `Engine.MessageTouchesOnlySender` | src/index.ts:56-112 | A message leaves every other user's profile, transcripts and reminder records as they were. |

## Left out

- The clients themselves: Firestore is replaced by maps, Gemini and the
  Google Docs template by scripted outcomes, and Cloud Tasks and the Telegram
  API by the requests and messages sent to them. The prompts,
  model names and exact message wording are not modelled; fixed texts are
  constructors of `Response.Body`.
- `createMorningPdf` (src/coach.ts:229-238) is the parameter `pdf`; the template
  filling and the random file name are not modelled.
- The HTTP entrypoint (src/index.ts:131-155) and the `message` event listener
  that forwards `Response`s to Telegram are I/O.
- Timers and the clock: waits are recorded as values. The handler reads `now`
  once, while the source's user creation and each day's `new Date()` read the
  clock separately.
- The limits of JavaScript `Date` (about ±8.64e15 ms) are not modelled; times are unbounded integers.
- `Math.random` in reminder ids is the parameter `suffix`.
- The record written by the un-awaited `setReminder` gets the slot's time as it is when `set` is called. Later mutations of the shared `Date` are not modelled as reaching it.
- Concurrency: `Promise.all` over prior reminders is sequential, per id. The
  un-awaited `createReminders` and `setReminder` calls finish inside the same
  turn. The rejection of an un-awaited `createReminders` (an `undefined`
  message list) does not reach the handler, as in the source, but its process
  effects are not modelled.
- Failures of Cloud Tasks `deleteTask`/`createTask` are swallowed by the
  source without any state or message effect, so they are not inputs.
  `scheduled` lists the requests made.
- Failures of the Firestore calls other than `updateUser` on a missing
  profile, and of the Telegram `sendMessage` and `editMessageReplyMarkup` calls, are not modelled.
- `Number(text)` is the parameter `toNumber`. Only its result is modelled as a
  JavaScript number: NaN, a real, or an infinity.
- `Engine.ScheduleFor`: a count that is not a non-negative whole number is
  recorded as a started `createReminders` call without its effects. Examples
  are 1.5 (which the step-1 check lets through) and `setReminder-x` data. A
  negative count is reachable only in the model: step 1 refuses counts below
  1 and the callback's piece stops before any `-`. The source's loop would then run over non-integral or
  no slots, and for an infinite count it would never end.
- `Schedule.SlotTimes`: the closed form of the slot times is stated for 1 to 4
  reminders a day. Larger counts are reachable only through hand-made callback
  data; there the drift is exhibited by `Schedule.RollOverDrift`, but no
  closed form is given.
- A batch spans the seven hours after the current one, not a week. The loop's
  comment speaks of "the week", and a commented-out `setUTCDate` call would
  have moved each round to a later day; the model follows the code that runs,
  which only moves the hour.
- In the source, the in-memory profile of a newly created user has `name`
  `undefined` rather than `''` when the chat has neither a username nor a first
  name. The model uses `''` throughout. Telegram private chats always carry a
  first name.
- The `createReminder` prompt asks for `7 * count` messages. Nothing checks
  the list length, so the model takes whatever list is generated.
- `Coach.Book`: a slot past the end of the generated list hands `undefined` as
  the text to the un-awaited `setReminder`. Firestore, created without
  `ignoreUndefinedProperties` (src/database.ts:4-6), refuses such a document,
  so the model writes no record for that slot. The task is still requested,
  without text. What the lost promise rejection does to the process is not
  modelled.
- `callbackQuery.message!`: a callback without its message is not modelled; the
  user id is a parameter.

=== FILE: base.dfy ===
/** Small failure-carrying datatypes shared by every module of the model. */
module Base {

  /** A value that may be absent: JavaScript's `undefined`/`null` in the source. */
  datatype Option<T> = None | Some(value: T) {

    /** The carried value, or `default` when absent. */
    function GetOr(default: T): T {
      if Some? then value else default
    }
  }

  /** A settled promise: resolved with a value or rejected with an error message. */
  datatype Result<T> = Ok(value: T) | Err(error: string)
}

=== FILE: coach.dfy ===
/** The coach's operations (src/coach.ts). External clients are replaced by
    scripted outcomes: invocation `k` of a generation call settles as
    `script(k)`, and the JSON it returns is an abstract record. */
module Coach {
  import opened Base
  import opened Store
  import opened Response
  import Retry
  import Schedule

  /** Retries and delay the coach passes to `retry` for every generation call. */
  const GenerationRetries: int := 3
  const GenerationInterval: int := 5000

  /** A chat turn as the model returns it: the reply text (absent when
      `response.text()` throws) and the session history afterwards. */
  datatype ChatReply = ChatReply(text: Option<string>, history: History)

  /** The JSON of the reminder-content call: not parseable, parseable without
      a `messages` field, or carrying the list of messages. */
  datatype ReminderJson = Unparseable | WithoutMessages | WithMessages(messages: seq<string>)

  /** The journal's `{newMessageForUser, isDone, sentences}` record. */
  datatype JournalJson = JournalJson(newMessageForUser: string, isDone: bool, sentences: seq<string>)

  /** A journal turn as the model returns it: the parsed JSON (absent when
      `JSON.parse` throws) and the session history afterwards. */
  datatype JournalReply = JournalReply(json: Option<JournalJson>, history: History)

  /** A Cloud Tasks `createTask` request: an HTTP call to Telegram's
      `sendMessage` at `seconds`, carrying the recipient and the text. */
  datatype Task = Task(id: ReminderId, seconds: int, to: UserId, text: Option<string>)

  /** What an operation did: the store afterwards, the messages emitted in
      order, the tasks it asked to cancel and to create, how many reminder
      messages it asked the generator for, and how it settled. */
  datatype Effect<T> = Effect(
    store: Store,
    out: seq<Outbound>,
    cancelled: set<ReminderId>,
    scheduled: seq<Task>,
    requested: Option<nat>,
    result: Result<T>)

  // ---------------------------------------------------------------------------
  // chat

  /** A chat turn whose first success, within the retry budget, has extractable text. */
  predicate ChatAnswersAt(attempts: nat -> Result<ChatReply>, k: nat) {
    k < Retry.Budget(GenerationRetries) && Retry.FirstSuccessAt(attempts, k) && attempts(k).value.text.Some?
  }

  /** `chat`: sends the message with retries; on a reply, stores the session
      history under `chat` and then emits the reply; on any failure emits only
      the apology and writes nothing. It never rejects. */
  function Chat(s: Store, u: UserId, attempts: nat -> Result<ChatReply>): (e: Effect<()>)
    ensures e.result.Ok? && e.cancelled == {} && e.scheduled == []
    ensures forall k: nat :: ChatAnswersAt(attempts, k) ==>
              e.store == SetChatHistory(s, u, ChatTopic, attempts(k).value.history) &&
              e.out == [Say(u, Generated(attempts(k).value.text.value))]
    ensures (forall k: nat :: !ChatAnswersAt(attempts, k)) ==>
              e.store == s && e.out == [Say(u, ChatApology)]
  {
    Retry.SettlesOnFirstSuccess(attempts, GenerationRetries, GenerationInterval);
    var run := Retry.Retry(attempts, GenerationRetries, GenerationInterval);
    if run.settled.Ok? && run.settled.value.text.Some? then
      assert ChatAnswersAt(attempts, run.calls - 1);
      var reply := run.settled.value;
      Effect(SetChatHistory(s, u, ChatTopic, reply.history), [Say(u, Generated(reply.text.value))], {}, [], None, Ok(()))
    else
      Effect(s, [Say(u, ChatApology)], {}, [], None, Ok(()))
  }

  // ---------------------------------------------------------------------------
  // sayHello

  /** `sayHello`: the intro video, then the name prompt. */
  function SayHello(s: Store, u: UserId): (e: Effect<()>)
    ensures e.store == s && e.result.Ok? && e.cancelled == {} && e.scheduled == []
    ensures |e.out| == 2 && e.out[0].Video? && e.out[1] == Say(u, NamePrompt)
    ensures e.out[0] == Video(u, IntroVideoUrl, IntroVideoWidth, IntroVideoHeight)
  {
    Effect(s, [Video(u, IntroVideoUrl, IntroVideoWidth, IntroVideoHeight), Say(u, NamePrompt)], {}, [], None, Ok(()))
  }

  // ---------------------------------------------------------------------------
  // createReminder

  /** `createReminder`: the generated message list (`None` stands for
      `undefined`), falling back to the empty list when generation fails after
      retries or the JSON does not parse. */
  function ReminderTexts(attempts: nat -> Result<ReminderJson>): (r: Option<seq<string>>)
    ensures (forall k: nat :: k < Retry.Budget(GenerationRetries) ==> attempts(k).Err?) ==> r == Some([])
    ensures forall k: nat :: k < Retry.Budget(GenerationRetries) && Retry.FirstSuccessAt(attempts, k) ==>
              (attempts(k).value == Unparseable ==> r == Some([])) &&
              (attempts(k).value == WithoutMessages ==> r == None) &&
              (attempts(k).value.WithMessages? ==> r == Some(attempts(k).value.messages))
  {
    Retry.SettlesOnFirstSuccess(attempts, GenerationRetries, GenerationInterval);
    var run := Retry.Retry(attempts, GenerationRetries, GenerationInterval);
    match run.settled
    case Err(_) => Some([])
    case Ok(json) =>
      match json
      case Unparseable => Some([])
      case WithoutMessages => None
      case WithMessages(ms) => Some(ms)
  }

  // ---------------------------------------------------------------------------
  // createReminders: replacing the previous batch

  datatype Cleared = Cleared(store: Store, cancelled: set<ReminderId>)

  /** Ids of the user's reminder records, as `getReminders` lists them. */
  function PriorIds(s: Store, u: UserId): set<ReminderId> {
    set r | r in GetReminders(s, u) :: r.id
  }

  /** The `Promise.all` over the user's prior records: each one's task is
      cancelled (a failure is swallowed) and its record deleted by the id it
      carries. */
  function ClearReminders(s: Store, u: UserId): (c: Cleared)
    ensures forall r :: r in GetReminders(s, u) ==> r.id in c.cancelled && (u, r.id) !in c.store.reminders
    ensures forall id :: id in c.cancelled ==> exists r :: r in GetReminders(s, u) && r.id == id
    ensures forall k :: k in s.reminders && k.0 != u ==> k in c.store.reminders && c.store.reminders[k] == s.reminders[k]
    ensures forall k :: k in c.store.reminders ==> k in s.reminders && c.store.reminders[k] == s.reminders[k]
    ensures c.store.users == s.users && c.store.histories == s.histories
  {
    var ids := PriorIds(s, u);
    Cleared(s.(reminders := map k | k in s.reminders && !(k.0 == u && k.1 in ids) :: s.reminders[k]), ids)
  }

  /** In a well-formed store, clearing leaves the user without any reminder. */
  lemma ClearLeavesNone(s: Store, u: UserId)
    requires Wf(s)
    ensures GetReminders(ClearReminders(s, u).store, u) == {}
    ensures Wf(ClearReminders(s, u).store)
  {
  }

  /** `store` is `s` with the user's records under the ids in `done` deleted. */
  ghost predicate DeletedExactly(s: Store, u: UserId, done: set<ReminderId>, store: Store) {
    && store.users == s.users
    && store.histories == s.histories
    && (forall k :: k in store.reminders <==> k in s.reminders && !(k.0 == u && k.1 in done))
    && (forall k :: k in store.reminders ==> store.reminders[k] == s.reminders[k])
  }

  lemma DeleteOneMore(s: Store, u: UserId, done: set<ReminderId>, store: Store, id: ReminderId)
    requires DeletedExactly(s, u, done, store)
    ensures DeletedExactly(s, u, done + {id}, DeleteReminder(store, u, id))
  {
  }

  lemma DeletedAll(s: Store, u: UserId, store: Store)
    requires DeletedExactly(s, u, PriorIds(s, u), store)
    ensures store == ClearReminders(s, u).store
  {
    var ids := PriorIds(s, u);
    var kept := map k | k in s.reminders && !(k.0 == u && k.1 in ids) :: s.reminders[k];
    assert ClearReminders(s, u).store == s.(reminders := kept);
    assert store.reminders == kept;
  }

  /** Cancels and deletes the user's records under each id of `ids`, one id
      at a time: cancel (outcome ignored), then `deleteReminder`. */
  method CancelAndDelete(s: Store, u: UserId, ids: set<ReminderId>) returns (store: Store, cancelled: set<ReminderId>)
    ensures cancelled == ids
    ensures DeletedExactly(s, u, ids, store)
  {
    var pending := ids;
    store := s;
    cancelled := {};
    while pending != {}
      invariant pending <= ids
      invariant cancelled == ids - pending
      invariant DeletedExactly(s, u, cancelled, store)
      decreases pending
    {
      var id :| id in pending;
      DeleteOneMore(s, u, cancelled, store, id);
      cancelled := cancelled + {id};
      store := DeleteReminder(store, u, id);
      pending := pending - {id};
    }
  }

  /** The same clearing, one record at a time as the source's per-record
      callbacks do it. Records sharing an id share one delete, which
      Firestore makes idempotent. */
  method ClearRemindersOneByOne(s: Store, u: UserId) returns (c: Cleared)
    ensures c == ClearReminders(s, u)
  {
    var store, cancelled := CancelAndDelete(s, u, PriorIds(s, u));
    DeletedAll(s, u, store);
    c := Cleared(store, cancelled);
  }

  // ---------------------------------------------------------------------------
  // createReminders: the new batch

  /** `reminder-{user}-{j + i * count}-{random}`, the random part drawn per slot. */
  function IdFor(u: UserId, slot: Schedule.Slot, suffix: nat -> string): ReminderId {
    ReminderId(u, slot.index, suffix(slot.index))
  }

  /** `messages[n]`: absent past the end of the generated list. */
  function TextAt(texts: seq<string>, n: nat): Option<string> {
    if n < |texts| then Some(texts[n]) else None
  }

  /** The record `setReminder` writes for a slot that has a message. */
  function RecordFor(u: UserId, slot: Schedule.Slot, texts: seq<string>, suffix: nat -> string): Reminder
    requires slot.index < |texts|
  {
    Reminder(IdFor(u, slot, suffix), slot.time, texts[slot.index])
  }

  /** `scheduleReminders`: the task for a slot. `scheduleTime.seconds` is the
      slot time in seconds, rounded down. */
  function TaskFor(u: UserId, slot: Schedule.Slot, texts: seq<string>, suffix: nat -> string): (t: Task)
    ensures t.seconds * Schedule.SecondMs <= slot.time < (t.seconds + 1) * Schedule.SecondMs
    ensures t.id == ReminderId(u, slot.index, suffix(slot.index)) && t.to == u
    ensures t.text.Some? <==> slot.index < |texts|
    ensures t.text.Some? ==> t.text.value == texts[slot.index]
  {
    Task(IdFor(u, slot, suffix), slot.time / Schedule.SecondMs, u, TextAt(texts, slot.index))
  }

  /** Ids of the slots that get a record: those with a message. */
  function BatchIds(u: UserId, slots: seq<Schedule.Slot>, texts: seq<string>, suffix: nat -> string): set<ReminderId> {
    set n | 0 <= n < |slots| && slots[n].index < |texts| :: IdFor(u, slots[n], suffix)
  }

  /** The slot loop's `setReminder` calls, in order. A slot past the end of
      the message list gets no record: `setReminder` is handed an `undefined`
      text, which Firestore refuses, and the un-awaited call's rejection is
      lost. Its task is still requested. */
  function Book(s: Store, u: UserId, slots: seq<Schedule.Slot>, texts: seq<string>, suffix: nat -> string): (r: Store)
    ensures r.users == s.users && r.histories == s.histories
    ensures forall k :: k in s.reminders && k.0 != u ==> k in r.reminders && r.reminders[k] == s.reminders[k]
    ensures forall k :: k in r.reminders && k.0 != u ==> k in s.reminders
    decreases |slots|
  {
    if |slots| == 0 then s
    else
      var s1 := if slots[0].index < |texts| then SetReminder(s, u, IdFor(u, slots[0], suffix), RecordFor(u, slots[0], texts, suffix)) else s;
      Book(s1, u, slots[1..], texts, suffix)
  }

  ghost predicate IndicesDistinct(slots: seq<Schedule.Slot>) {
    forall m, n :: 0 <= m < n < |slots| ==> slots[m].index != slots[n].index
  }

  /** After the loop every slot with a message has its record stored under
      its id, those ids are the only keys added, and every other record is as
      it was. */
  lemma {:induction false} BookContents(s: Store, u: UserId, slots: seq<Schedule.Slot>, texts: seq<string>, suffix: nat -> string)
    requires IndicesDistinct(slots)
    ensures forall n :: 0 <= n < |slots| && slots[n].index < |texts| ==>
              (u, IdFor(u, slots[n], suffix)) in Book(s, u, slots, texts, suffix).reminders &&
              Book(s, u, slots, texts, suffix).reminders[(u, IdFor(u, slots[n], suffix))] == RecordFor(u, slots[n], texts, suffix)
    ensures forall k :: k in Book(s, u, slots, texts, suffix).reminders <==>
              k in s.reminders || (k.0 == u && k.1 in BatchIds(u, slots, texts, suffix))
    ensures forall k :: k in s.reminders && !(k.0 == u && k.1 in BatchIds(u, slots, texts, suffix)) ==>
              Book(s, u, slots, texts, suffix).reminders[k] == s.reminders[k]
    decreases |slots|
  {
    if |slots| > 0 {
      var first := IdFor(u, slots[0], suffix);
      var s1 := if slots[0].index < |texts| then SetReminder(s, u, first, RecordFor(u, slots[0], texts, suffix)) else s;
      var rest := slots[1..];
      assert Book(s, u, slots, texts, suffix) == Book(s1, u, rest, texts, suffix);
      BatchIdsCons(u, slots, texts, suffix);
      BookContents(s1, u, rest, texts, suffix);
      forall n | 0 <= n < |slots| && slots[n].index < |texts|
        ensures (u, IdFor(u, slots[n], suffix)) in Book(s, u, slots, texts, suffix).reminders
        ensures Book(s, u, slots, texts, suffix).reminders[(u, IdFor(u, slots[n], suffix))] == RecordFor(u, slots[n], texts, suffix)
      {
        if n > 0 {
          assert slots[n] == rest[n - 1];
        }
      }
    }
  }

  /** Peeling the first slot off a batch: its id, when it has a message, and
      the ids of the rest, which do not include it. */
  lemma BatchIdsCons(u: UserId, slots: seq<Schedule.Slot>, texts: seq<string>, suffix: nat -> string)
    requires |slots| > 0 && IndicesDistinct(slots)
    ensures IndicesDistinct(slots[1..])
    ensures IdFor(u, slots[0], suffix) !in BatchIds(u, slots[1..], texts, suffix)
    ensures BatchIds(u, slots, texts, suffix) ==
            (if slots[0].index < |texts| then {IdFor(u, slots[0], suffix)} else {}) + BatchIds(u, slots[1..], texts, suffix)
  {
    var rest := slots[1..];
    var head: set<ReminderId> := if slots[0].index < |texts| then {IdFor(u, slots[0], suffix)} else {};
    forall m, n | 0 <= m < n < |rest| ensures rest[m].index != rest[n].index {
      assert rest[m] == slots[m + 1] && rest[n] == slots[n + 1];
    }
    forall id | id in BatchIds(u, slots, texts, suffix) ensures id in head + BatchIds(u, rest, texts, suffix) {
      var n :| 0 <= n < |slots| && slots[n].index < |texts| && IdFor(u, slots[n], suffix) == id;
      if n > 0 {
        assert slots[n] == rest[n - 1];
      }
    }
    forall id | id in BatchIds(u, rest, texts, suffix) ensures id in BatchIds(u, slots, texts, suffix) {
      var n :| 0 <= n < |rest| && rest[n].index < |texts| && IdFor(u, rest[n], suffix) == id;
      assert rest[n] == slots[n + 1];
    }
  }

  /** The message `createReminders` reports when the slot loop reads from an
      `undefined` message list. */
  const UndefinedMessages: string := "TypeError: cannot read properties of undefined"

  /** `createReminders`: confirmation text; every prior record cancelled and
      deleted; notification nudge; `7 * count` messages requested from the
      generator; one task per slot and one record per slot that has a message,
      the slot's content at index `j + i * count`; the closing text. A message
      list that is `undefined` makes the first slot throw, so nothing is
      booked and the closing text is not sent. */
  function CreateReminders(s: Store, u: UserId, count: nat, now: int,
                           generation: nat -> Result<ReminderJson>, suffix: nat -> string): (e: Effect<()>)
    ensures e.store.users == s.users && e.store.histories == s.histories
    ensures e.requested == Some(Schedule.Days * count)
    ensures |e.out| >= 2 && e.out[0] == Say(u, RemindersChosen(count)) && e.out[1] == Say(u, EnableNotifications)
    ensures e.result.Ok? ==> e.out == [Say(u, RemindersChosen(count)), Say(u, EnableNotifications), Say(u, JourneyClosing)]
    ensures e.result.Err? ==> |e.out| == 2 && e.scheduled == [] && e.store == ClearReminders(s, u).store
    ensures e.result.Err? <==> count > 0 && ReminderTexts(generation).None?
    ensures e.cancelled == PriorIds(s, u)
    ensures forall k :: k in s.reminders && k.0 != u ==> k in e.store.reminders && e.store.reminders[k] == s.reminders[k]
    ensures forall k :: k in e.store.reminders && k.0 != u ==> k in s.reminders
    ensures e.result.Ok? ==> |e.scheduled| == Schedule.Days * count
    ensures e.result.Ok? ==> forall n :: 0 <= n < |e.scheduled| ==>
              e.scheduled[n] == Task(ReminderId(u, n, suffix(n)), Schedule.Slots(now, count)[n].time / Schedule.SecondMs, u,
                                     TextAt(ReminderTexts(generation).GetOr([]), n))
  {
    var cleared := ClearReminders(s, u);
    var opening := [Say(u, RemindersChosen(count)), Say(u, EnableNotifications)];
    var requested := Some(Schedule.Days * count);
    match ReminderTexts(generation)
    case None =>
      if count == 0 then Effect(cleared.store, opening + [Say(u, JourneyClosing)], cleared.cancelled, [], requested, Ok(()))
      else Effect(cleared.store, opening, cleared.cancelled, [], requested, Err(UndefinedMessages))
    case Some(texts) =>
      var slots := Schedule.Slots(now, count);
      Schedule.SlotsShape(now, count);
      var tasks := seq(|slots|, n requires 0 <= n < |slots| => TaskFor(u, slots[n], texts, suffix));
      Effect(Book(cleared.store, u, slots, texts, suffix), opening + [Say(u, JourneyClosing)], cleared.cancelled, tasks, requested, Ok(()))
  }

  /** The slots of a batch of `count` a day that get a record: as many as
      there are messages, up to `7 * count`. */
  function BookedSlots(count: nat, texts: seq<string>): nat {
    if |texts| < Schedule.Days * count then |texts| else Schedule.Days * count
  }

  /** The ids of the first `size` slots of a batch. */
  function NewBatch(u: UserId, size: nat, suffix: nat -> string): set<ReminderId> {
    set n | 0 <= n < size :: ReminderId(u, n, suffix(n))
  }

  lemma {:induction false} RangeImageSize(u: UserId, suffix: nat -> string, size: nat)
    ensures |NewBatch(u, size, suffix)| == size
  {
    if size > 0 {
      var smaller := NewBatch(u, size - 1, suffix);
      RangeImageSize(u, suffix, size - 1);
      var last := ReminderId(u, size - 1, suffix(size - 1));
      assert last !in smaller;
      assert NewBatch(u, size, suffix) == smaller + {last};
    }
  }

  /** The slots of a batch carry the ids `ReminderId(u, n, suffix(n))`, one per
      position; those with a message are the first `BookedSlots` of them. */
  lemma SlotIds(u: UserId, count: nat, now: int, texts: seq<string>, suffix: nat -> string)
    ensures IndicesDistinct(Schedule.Slots(now, count))
    ensures forall n :: 0 <= n < |Schedule.Slots(now, count)| ==>
              IdFor(u, Schedule.Slots(now, count)[n], suffix) == ReminderId(u, n, suffix(n))
    ensures BatchIds(u, Schedule.Slots(now, count), texts, suffix) == NewBatch(u, BookedSlots(count, texts), suffix)
  {
    var slots := Schedule.Slots(now, count);
    Schedule.SlotsShape(now, count);
    forall id | id in NewBatch(u, BookedSlots(count, texts), suffix) ensures id in BatchIds(u, slots, texts, suffix) {
      var n :| 0 <= n < BookedSlots(count, texts) && id == ReminderId(u, n, suffix(n));
      assert IdFor(u, slots[n], suffix) == id;
    }
  }

  /** After clearing, a well-formed store holds no key of the user. */
  lemma ClearedHasNoKey(s: Store, u: UserId)
    requires Wf(s)
    ensures forall id :: (u, id) !in ClearReminders(s, u).store.reminders
  {
  }

  /** A completed `createReminders` books its slots into the cleared store. */
  lemma CreatedStore(s: Store, u: UserId, count: nat, now: int,
                     generation: nat -> Result<ReminderJson>, suffix: nat -> string)
    requires CreateReminders(s, u, count, now, generation, suffix).result.Ok?
    ensures CreateReminders(s, u, count, now, generation, suffix).store ==
            Book(ClearReminders(s, u).store, u, Schedule.Slots(now, count), ReminderTexts(generation).GetOr([]), suffix)
  {
  }

  /** Booking a batch into a well-formed store that holds nothing of the user. */
  lemma BookIntoCleared(c: Store, u: UserId, count: nat, now: int, texts: seq<string>, suffix: nat -> string)
    requires Wf(c)
    requires forall id :: (u, id) !in c.reminders
    ensures var r := Book(c, u, Schedule.Slots(now, count), texts, suffix);
            forall id :: (u, id) in r.reminders <==> id in NewBatch(u, BookedSlots(count, texts), suffix)
    ensures var r := Book(c, u, Schedule.Slots(now, count), texts, suffix);
            forall n :: 0 <= n < BookedSlots(count, texts) ==>
              && (u, ReminderId(u, n, suffix(n))) in r.reminders
              && n < |Schedule.Slots(now, count)| && n < |texts|
              && r.reminders[(u, ReminderId(u, n, suffix(n)))] ==
                 Reminder(ReminderId(u, n, suffix(n)), Schedule.Slots(now, count)[n].time, texts[n])
    ensures Wf(Book(c, u, Schedule.Slots(now, count), texts, suffix))
  {
    var slots := Schedule.Slots(now, count);
    Schedule.SlotsShape(now, count);
    SlotIds(u, count, now, texts, suffix);
    BookContents(c, u, slots, texts, suffix);
    BookedAt(c, u, slots, texts, suffix);
    BookedWf(c, u, slots, texts, suffix);
  }

  /** Slot `n` of a batch whose slot `n` has index `n`: when message `n`
      exists, its record is stored under `ReminderId(u, n, suffix(n))`. */
  lemma BookedAt(c: Store, u: UserId, slots: seq<Schedule.Slot>, texts: seq<string>, suffix: nat -> string)
    requires IndicesDistinct(slots)
    requires forall n :: 0 <= n < |slots| ==> slots[n].index == n
    ensures forall n :: 0 <= n < |slots| && n < |texts| ==>
              (u, ReminderId(u, n, suffix(n))) in Book(c, u, slots, texts, suffix).reminders &&
              Book(c, u, slots, texts, suffix).reminders[(u, ReminderId(u, n, suffix(n)))] ==
              Reminder(ReminderId(u, n, suffix(n)), slots[n].time, texts[n])
  {
    BookContents(c, u, slots, texts, suffix);
    forall n | 0 <= n < |slots| && n < |texts|
      ensures IdFor(u, slots[n], suffix) == ReminderId(u, n, suffix(n))
    {
    }
  }

  /** Booking into a well-formed store keeps it well formed. */
  lemma BookedWf(c: Store, u: UserId, slots: seq<Schedule.Slot>, texts: seq<string>, suffix: nat -> string)
    requires Wf(c) && IndicesDistinct(slots)
    ensures Wf(Book(c, u, slots, texts, suffix))
  {
    BookContents(c, u, slots, texts, suffix);
    var r := Book(c, u, slots, texts, suffix);
    forall k | k in r.reminders ensures r.reminders[k].id == k.1 {
      if k.0 == u && k.1 in BatchIds(u, slots, texts, suffix) {
        var n :| 0 <= n < |slots| && slots[n].index < |texts| && IdFor(u, slots[n], suffix) == k.1;
      }
    }
  }

  /** Replacement: in a well-formed store, after a completed `createReminders`
      the user's records are exactly those of the slots that have a message,
      the first `min(7 * count, |messages|)`, each at its slot time with its
      message; the store stays well formed. */
  lemma ReplacesBatch(s: Store, u: UserId, count: nat, now: int,
                      generation: nat -> Result<ReminderJson>, suffix: nat -> string)
    requires Wf(s)
    requires CreateReminders(s, u, count, now, generation, suffix).result.Ok?
    ensures var e := CreateReminders(s, u, count, now, generation, suffix);
            var texts := ReminderTexts(generation).GetOr([]);
            forall id :: (u, id) in e.store.reminders <==> id in NewBatch(u, BookedSlots(count, texts), suffix)
    ensures var e := CreateReminders(s, u, count, now, generation, suffix);
            var texts := ReminderTexts(generation).GetOr([]);
            forall n :: 0 <= n < BookedSlots(count, texts) ==>
              && (u, ReminderId(u, n, suffix(n))) in e.store.reminders
              && n < |Schedule.Slots(now, count)| && n < |texts|
              && e.store.reminders[(u, ReminderId(u, n, suffix(n)))] ==
                 Reminder(ReminderId(u, n, suffix(n)), Schedule.Slots(now, count)[n].time, texts[n])
    ensures |NewBatch(u, BookedSlots(count, ReminderTexts(generation).GetOr([])), suffix)| ==
            BookedSlots(count, ReminderTexts(generation).GetOr([]))
    ensures Wf(CreateReminders(s, u, count, now, generation, suffix).store)
  {
    var texts := ReminderTexts(generation).GetOr([]);
    var c := ClearReminders(s, u).store;
    CreatedStore(s, u, count, now, generation, suffix);
    ClearLeavesNone(s, u);
    ClearedHasNoKey(s, u);
    BookIntoCleared(c, u, count, now, texts, suffix);
    assert CreateReminders(s, u, count, now, generation, suffix).store == Book(c, u, Schedule.Slots(now, count), texts, suffix);
    RangeImageSize(u, suffix, BookedSlots(count, texts));
  }

  /** Whether or not it completes, `createReminders` keeps the store well formed. */
  lemma CreateRemindersKeepsWf(s: Store, u: UserId, count: nat, now: int,
                               generation: nat -> Result<ReminderJson>, suffix: nat -> string)
    requires Wf(s)
    ensures Wf(CreateReminders(s, u, count, now, generation, suffix).store)
  {
    if CreateReminders(s, u, count, now, generation, suffix).result.Ok? {
      ReplacesBatch(s, u, count, now, generation, suffix);
    } else {
      ClearLeavesNone(s, u);
    }
  }

  /** Pressing the reminder button twice: after the second run the user's
      records are exactly those of the second batch, and every record of the
      first batch that the second did not rewrite under the same id is gone.
      Either run may reject on an `undefined` message list; a rejected second
      run has cleared everything and booked nothing. */
  lemma SecondBatchReplacesFirst(s: Store, u: UserId, now1: int, now2: int, count1: nat, count2: nat,
                                 gen1: nat -> Result<ReminderJson>, gen2: nat -> Result<ReminderJson>,
                                 suffix1: nat -> string, suffix2: nat -> string)
    requires Wf(s)
    ensures var second := CreateReminders(CreateReminders(s, u, count1, now1, gen1, suffix1).store, u, count2, now2, gen2, suffix2);
            var batch1 := NewBatch(u, BookedSlots(count1, ReminderTexts(gen1).GetOr([])), suffix1);
            var batch2 := NewBatch(u, BookedSlots(count2, ReminderTexts(gen2).GetOr([])), suffix2);
            (forall id :: (u, id) in second.store.reminders <==> id in batch2) &&
            (forall id :: id in batch1 && id !in batch2 ==> (u, id) !in second.store.reminders)
  {
    var first := CreateReminders(s, u, count1, now1, gen1, suffix1);
    CreateRemindersKeepsWf(s, u, count1, now1, gen1, suffix1);
    if CreateReminders(first.store, u, count2, now2, gen2, suffix2).result.Ok? {
      ReplacesBatch(first.store, u, count2, now2, gen2, suffix2);
    } else {
      ClearedHasNoKey(first.store, u);
      assert NewBatch(u, 0, suffix2) == {};
    }
  }

  /** Task `n` of a completed batch fires at slot `n`'s time, in whole seconds. */
  lemma TasksAtSlotTimes(s: Store, u: UserId, count: nat, now: int,
                         generation: nat -> Result<ReminderJson>, suffix: nat -> string)
    requires CreateReminders(s, u, count, now, generation, suffix).result.Ok?
    ensures var e := CreateReminders(s, u, count, now, generation, suffix);
            |e.scheduled| == |Schedule.Slots(now, count)|
    ensures var e := CreateReminders(s, u, count, now, generation, suffix);
            forall n :: 0 <= n < |e.scheduled| ==> e.scheduled[n].seconds * Schedule.SecondMs == Schedule.Slots(now, count)[n].time
  {
    Schedule.SlotsOnWholeMinutes(now, count);
  }

  /** Task `n` of a batch of `count` reminders a day fires at
      `NominalTime(now, n / count, n % count)` in whole seconds, strictly
      after the previous task and after `now`. */
  predicate TimedByIndex(tasks: seq<Task>, now: int, count: nat)
    requires count > 0
  {
    && (forall n :: 0 <= n < |tasks| ==>
          tasks[n].seconds * Schedule.SecondMs == Schedule.NominalTime(now, n / count, n % count))
    && (forall m, n :: 0 <= m < n < |tasks| ==> tasks[m].seconds < tasks[n].seconds)
    && (forall n :: 0 <= n < |tasks| ==> tasks[n].seconds * Schedule.SecondMs > now)
  }

  /** Tasks that fire at the slot times of a batch of 1 to 3 reminders a day
      fire at their nominal times, in increasing order, all after `now`. */
  lemma TasksFollowSlots(tasks: seq<Task>, now: int, count: nat)
    requires 1 <= count <= 3
    requires |tasks| == |Schedule.Slots(now, count)|
    requires forall n :: 0 <= n < |tasks| ==> tasks[n].seconds * Schedule.SecondMs == Schedule.Slots(now, count)[n].time
    ensures TimedByIndex(tasks, now, count)
  {
    var slots := Schedule.Slots(now, count);
    Schedule.SlotTimesByIndex(now, count);
    Schedule.SlotsIncreasing(now, count);
    forall m, n | 0 <= m < n < |tasks|
      ensures tasks[m].seconds < tasks[n].seconds
    {
      assert slots[m].time < slots[n].time;
      assert tasks[m].seconds * Schedule.SecondMs < tasks[n].seconds * Schedule.SecondMs;
    }
  }

  /** The tasks of a completed batch of 1 to 3 reminders a day: task `n` fires
      at `NominalTime(now, n / count, n % count)` in whole seconds, strictly
      after the previous one and after `now`. */
  lemma TasksAtNominalTimes(s: Store, u: UserId, count: nat, now: int,
                             generation: nat -> Result<ReminderJson>, suffix: nat -> string)
    requires 1 <= count <= 3
    requires CreateReminders(s, u, count, now, generation, suffix).result.Ok?
    ensures TimedByIndex(CreateReminders(s, u, count, now, generation, suffix).scheduled, now, count)
  {
    var e := CreateReminders(s, u, count, now, generation, suffix);
    TasksAtSlotTimes(s, u, count, now, generation, suffix);
    TasksFollowSlots(e.scheduled, now, count);
  }

  // ---------------------------------------------------------------------------
  // askQuestionForMorningJournal

  /** JavaScript truthiness of an optional text: present and not empty. */
  predicate NonEmpty(message: Option<string>) {
    message.Some? && message.value != ""
  }

  /** The opening question arrives: the first success of the retried opening
      call, within budget, parses. */
  predicate OpensAt(opening: nat -> Result<JournalReply>, k: nat) {
    k < Retry.Budget(GenerationRetries) && Retry.FirstSuccessAt(opening, k) && opening(k).value.json.Some?
  }

  /** `askQuestionForMorningJournal`. Without a message: the opening prompt in a
      fresh session, with retries; the history is stored under
      `morning-journal` and the question emitted; it returns false. With a
      message: one call on the stored session, no retry; the history is stored
      and `newMessageForUser` emitted; when `isDone`, the PDF is made from the
      sentences and "Great! Here is your PDF" then the file are emitted, and it
      returns true. A failed call or unparseable JSON rejects before any write;
      a failed PDF export rejects after the history and question. */
  function MorningJournal(s: Store, u: UserId, message: Option<string>,
                          opening: nat -> Result<JournalReply>, turn: Result<JournalReply>,
                          pdf: seq<string> -> Result<string>): (e: Effect<bool>)
    ensures e.store.users == s.users && e.store.reminders == s.reminders
    ensures e.cancelled == {} && e.scheduled == []
    ensures e.result == Ok(true) <==>
              NonEmpty(message) && turn.Ok? && turn.value.json.Some? && turn.value.json.value.isDone &&
              pdf(turn.value.json.value.sentences).Ok?
    ensures e.result == Ok(true) ==>
              e.out == [Say(u, Generated(turn.value.json.value.newMessageForUser)), Say(u, PdfReady),
                        File(u, pdf(turn.value.json.value.sentences).value)]
    ensures !NonEmpty(message) ==>
              (forall k: nat :: OpensAt(opening, k) ==>
                 e.result == Ok(false) &&
                 e.store == SetChatHistory(s, u, JournalTopic, opening(k).value.history) &&
                 e.out == [Say(u, Generated(opening(k).value.json.value.newMessageForUser))]) &&
              ((forall k: nat :: !OpensAt(opening, k)) ==> e.result.Err? && e.store == s && e.out == [])
    ensures NonEmpty(message) && turn.Ok? && turn.value.json.Some? ==>
              e.store == SetChatHistory(s, u, JournalTopic, turn.value.history) &&
              |e.out| >= 1 && e.out[0] == Say(u, Generated(turn.value.json.value.newMessageForUser))
    ensures NonEmpty(message) && turn.Ok? && turn.value.json.Some? && !turn.value.json.value.isDone ==>
              e.result == Ok(false) && |e.out| == 1
    ensures NonEmpty(message) && turn.Ok? && turn.value.json.Some? && turn.value.json.value.isDone &&
            pdf(turn.value.json.value.sentences).Err? ==>
              e.result.Err? && |e.out| == 1
    ensures NonEmpty(message) && (turn.Err? || turn.value.json.None?) ==> e.result.Err? && e.store == s && e.out == []
  {
    if !NonEmpty(message) then
      Retry.SettlesOnFirstSuccess(opening, GenerationRetries, GenerationInterval);
      var run := Retry.Retry(opening, GenerationRetries, GenerationInterval);
      match run.settled
      case Err(err) => Effect(s, [], {}, [], None, Err(err))
      case Ok(reply) =>
        match reply.json
        case None => Effect(s, [], {}, [], None, Err(UnparseableJson))
        case Some(json) =>
          assert OpensAt(opening, run.calls - 1);
          Effect(SetChatHistory(s, u, JournalTopic, reply.history), [Say(u, Generated(json.newMessageForUser))], {}, [], None, Ok(false))
    else
      match turn
      case Err(err) => Effect(s, [], {}, [], None, Err(err))
      case Ok(reply) =>
        match reply.json
        case None => Effect(s, [], {}, [], None, Err(UnparseableJson))
        case Some(json) =>
          var stored := SetChatHistory(s, u, JournalTopic, reply.history);
          var question := [Say(u, Generated(json.newMessageForUser))];
          if !json.isDone then Effect(stored, question, {}, [], None, Ok(false))
          else
            match pdf(json.sentences)
            case Err(err) => Effect(stored, question, {}, [], None, Err(err))
            case Ok(path) => Effect(stored, question + [Say(u, PdfReady), File(u, path)], {}, [], None, Ok(true))
  }

  const UnparseableJson: string := "SyntaxError: unexpected token in JSON"
}

=== FILE: engine.dfy ===
/** The bot's update handlers (src/index.ts): slash commands, the per-user
    step machine (0 name, 1 reminder count, 2 chat, 3 morning journal) and the
    reminder-button callback, as one transition from the store and an inbound
    update to the store afterwards, the messages sent and the coach calls made. */
module Engine {
  import opened Base
  import opened Store
  import opened Response
  import opened Text
  import Coach

  const NameStep: int := 0
  const CountStep: int := 1
  const ChatStep: int := 2
  const JournalStep: int := 3

  /** The Telegram chat an update comes from: its id, as a string, and the
      optional `username` and `first_name`. */
  datatype ChatInfo = ChatInfo(id: UserId, username: Option<string>, firstName: Option<string>)

  /** A JavaScript number as `Number(text)` can produce it. */
  datatype JsNumber = NaN | Num(value: real) | Infinity(negative: bool)

  /** A coach operation a handler starts, with the arguments that do not
      appear in the store or the outbound messages. */
  datatype CoachCall =
    | Hello
    | Talk(message: string)
    | OpenJournal
    | AnswerJournal(message: string)
    | ScheduleReminders(name: string, count: JsNumber)

  /** Everything outside the store a handler depends on: the clock, the
      scripted outcomes of the coach's generation, PDF and id calls, and
      JavaScript's `Number` on strings. */
  datatype World = World(
    now: int,
    chatAttempts: nat -> Result<Coach.ChatReply>,
    reminderAttempts: nat -> Result<Coach.ReminderJson>,
    journalOpening: nat -> Result<Coach.JournalReply>,
    journalTurn: Result<Coach.JournalReply>,
    pdf: seq<string> -> Result<string>,
    suffix: nat -> string,
    toNumber: string -> JsNumber)

  /** What handling one update did. `result` is how the handler's promise settles. */
  datatype Turn = Turn(
    store: Store,
    out: seq<Outbound>,
    cancelled: set<ReminderId>,
    scheduled: seq<Task>,
    calls: seq<CoachCall>,
    result: Result<()>)

  type Task = Coach.Task

  /** Nothing more happens. */
  function Quiet(s: Store): Turn {
    Turn(s, [], {}, [], [], Ok(()))
  }

  /** Awaiting a coach operation: its effects after the messages `pre`, its rejection propagated. */
  function Await<T>(pre: seq<Outbound>, e: Coach.Effect<T>, calls: seq<CoachCall>): (t: Turn)
    ensures t.store == e.store && t.out == pre + e.out && t.cancelled == e.cancelled && t.scheduled == e.scheduled
    ensures t.calls == calls && (t.result.Ok? <==> e.result.Ok?)
  {
    Turn(e.store, pre + e.out, e.cancelled, e.scheduled, calls, if e.result.Ok? then Ok(()) else Err(e.result.error))
  }

  /** `username || first_name || ''`: the first of the two that is present
      and non-empty, else the empty string. */
  function DisplayName(chat: ChatInfo): (name: string)
    ensures chat.username.Some? && chat.username.value != "" ==> name == chat.username.value
    ensures (chat.username.None? || chat.username.value == "") ==> name == chat.firstName.GetOr("")
  {
    if chat.username.Some? && chat.username.value != "" then chat.username.value
    else if chat.firstName.Some? && chat.firstName.value != "" then chat.firstName.value
    else ""
  }

  /** The profile of the chat's user, created with step 0 when absent. */
  function LoadOrCreate(s: Store, chat: ChatInfo, now: int): (r: (Store, Profile))
    ensures chat.id in r.0.users && r.0.users[chat.id] == r.1
    ensures chat.id in s.users ==> r.0 == s
    ensures chat.id !in s.users ==> r.1 == Profile(chat.id, DisplayName(chat), NameStep, now)
    ensures r.0.histories == s.histories && r.0.reminders == s.reminders
    ensures forall v :: v != chat.id ==> GetUser(r.0, v) == GetUser(s, v)
  {
    if chat.id in s.users then (s, s.users[chat.id])
    else
      var s1 := CreateUser(s, chat.id, DisplayName(chat), now);
      (s1, s1.users[chat.id])
  }

  // ---------------------------------------------------------------------------
  // handleCommand

  /** `handleCommand`: `/start` resets the step to 0 and says hello; a text
      starting with `/talk` chats with the trimmed text up to the next
      `/talk`; `/pdf_feature` sets step 3 and opens the journal; any other
      command does nothing beyond creating an absent user. */
  function HandleCommand(s: Store, w: World, chat: ChatInfo, text: string): (t: Turn)
    ensures t.store.reminders == s.reminders
  {
    var (s1, p) := LoadOrCreate(s, chat, w.now);
    Dispatch(s1, w, chat.id, p, text)
  }

  /** The command `text` of `u`, whose loaded profile is `p`. */
  function Dispatch(s: Store, w: World, u: UserId, p: Profile, text: string): (t: Turn)
    ensures t.store.reminders == s.reminders
  {
    if text == "/start" then
      match UpdateUser(s, u, Whole(p.(step := NameStep)))
      case Err(err) => Turn(s, [], {}, [], [], Err(err))
      case Ok(s2) => Await([], Coach.SayHello(s2, u), [Hello])
    else if StartsWith(text, "/talk") then TalkCommand(s, w, u, text)
    else if text == "/pdf_feature" then PdfCommand(s, w, u, p)
    else Quiet(s)
  }

  /** `/talk`: the text after the leading `/talk`, up to any later one, trimmed, goes to the chat. */
  function TalkCommand(s: Store, w: World, u: UserId, text: string): Turn
    requires StartsWith(text, "/talk")
  {
    SplitLeading(text, "/talk");
    var message := Trim(Split(text, "/talk")[1]);
    Await([], Coach.Chat(s, u, w.chatAttempts), [Talk(message)])
  }

  /** `/pdf_feature`: step 3, then the journal's opening turn. */
  function PdfCommand(s: Store, w: World, u: UserId, p: Profile): Turn {
    match UpdateUser(s, u, Whole(p.(step := JournalStep)))
    case Err(err) => Turn(s, [], {}, [], [], Err(err))
    case Ok(s2) => Await([], Coach.MorningJournal(s2, u, None, w.journalOpening, w.journalTurn, w.pdf), [OpenJournal])
  }

  /** The `/pdf_feature` branch writes `p` at step 3 and, beyond the journal's
      transcript, nothing else. */
  lemma PdfCommandEffects(s: Store, w: World, u: UserId, p: Profile)
    requires u in s.users
    ensures PdfCommand(s, w, u, p).store.users == s.users[u := p.(step := JournalStep)]
    ensures PdfCommand(s, w, u, p).store.reminders == s.reminders
  {
    var r := UpdateUser(s, u, Whole(p.(step := JournalStep)));
    assert r.value.users == s.users[u := p.(step := JournalStep)];
  }

  // ---------------------------------------------------------------------------
  // handleMessage

  /** The answer buttons under the reminder-count question. */
  const CountButtons: seq<Button> :=
    [Button("1", "setReminder-1"), Button("2", "setReminder-2"), Button("3", "setReminder-3")]

  /** The five messages that follow the user's name. */
  function Introduction(u: UserId, name: string): seq<Outbound> {
    [Say(u, Welcome(name)), Say(u, CoachIntro), Say(u, DailyReminders), Say(u, NotTherapy),
     Text(u, HowManyReminders, CountButtons)]
  }

  /** The count check of step 1, literally `count > 3 || count < 1 || isNaN(count)`. */
  predicate RejectsCount(c: JsNumber) {
    match c
    case NaN => true
    case Num(r) => r > 3.0 || r < 1.0
    case Infinity(negative) => true
  }

  /** The count `createReminders` receives, when it is a non-negative whole number. */
  function WholeCount(c: JsNumber): (k: Option<nat>)
    ensures k.Some? <==> c.Num? && c.value >= 0.0 && c.value == c.value.Floor as real
    ensures k.Some? ==> k.value as real == c.value
  {
    if c.Num? && c.value >= 0.0 && c.value == c.value.Floor as real then Some(c.value.Floor) else None
  }

  /** Starting `createReminders` without awaiting it, after the messages
      `pre`: its effects are kept, its outcome never reaches the handler. */
  function ScheduleFor(s: Store, w: World, u: UserId, name: string, count: JsNumber, pre: seq<Outbound>): (t: Turn)
    ensures t.calls == [ScheduleReminders(name, count)] && t.result.Ok?
    ensures t.store.users == s.users && t.store.histories == s.histories
    ensures |t.out| >= |pre| && t.out[..|pre|] == pre
    ensures WholeCount(count).Some? ==>
              var e := Coach.CreateReminders(s, u, WholeCount(count).value, w.now, w.reminderAttempts, w.suffix);
              t.store == e.store && t.out == pre + e.out && t.cancelled == e.cancelled && t.scheduled == e.scheduled
  {
    match WholeCount(count)
    case Some(k) =>
      var e := Coach.CreateReminders(s, u, k, w.now, w.reminderAttempts, w.suffix);
      Turn(e.store, pre + e.out, e.cancelled, e.scheduled, [ScheduleReminders(name, count)], Ok(()))
    case None => Turn(s, pre, {}, [], [ScheduleReminders(name, count)], Ok(()))
  }

  predicate IsCommand(text: Option<string>) {
    text.Some? && StartsWith(text.value, "/")
  }

  /** `handleMessage`: a text starting with `/` goes to `HandleCommand`;
      otherwise the user is loaded (or created at step 0) and the step
      decides: at 0 the text becomes the name and the step 1, followed by the
      introduction; at 1 the text is read as a count, re-prompted when out of
      range and otherwise handed to `createReminders` with the step left at 1;
      at 2 it goes to the chat; at 3 to the journal, whose completion moves the
      user to step 2. Without text, or at any other step, nothing happens. */
  function HandleMessage(s: Store, w: World, chat: ChatInfo, text: Option<string>): (t: Turn)
    ensures forall v :: v in t.store.users <==> v in s.users || v == chat.id
    ensures !IsCommand(text) && !Coach.NonEmpty(text) ==> t == Quiet(LoadOrCreate(s, chat, w.now).0)
  {
    if IsCommand(text) then
      CommandKeepsProfiles(s, w, chat, text.value);
      HandleCommand(s, w, chat, text.value)
    else
      var (s1, p) := LoadOrCreate(s, chat, w.now);
      ByStep(s1, w, chat.id, p, text)
  }

  /** A command adds the sender's profile when absent and no other. */
  lemma CommandKeepsProfiles(s: Store, w: World, chat: ChatInfo, text: string)
    ensures forall v :: v in HandleCommand(s, w, chat, text).store.users <==> v in s.users || v == chat.id
  {
    var (s1, p) := LoadOrCreate(s, chat, w.now);
    var t := HandleCommand(s, w, chat, text);
    if text == "/start" {
      var r := UpdateUser(s1, chat.id, Whole(p.(step := NameStep)));
      assert t.store == r.value;
    } else if StartsWith(text, "/talk") {
      assert t == TalkCommand(s1, w, chat.id, text);
      TalkCommandEffects(s1, w, chat.id, text);
    } else if text == "/pdf_feature" {
      assert t == PdfCommand(s1, w, chat.id, p);
      PdfCommandEffects(s1, w, chat.id, p);
    }
  }

  /** The step dispatch of a text that is not a command; `p` is the sender's
      profile as loaded. */
  function ByStep(s: Store, w: World, u: UserId, p: Profile, text: Option<string>): (t: Turn)
    ensures forall v :: v in t.store.users <==> v in s.users
    ensures !Coach.NonEmpty(text) || p.step < NameStep || p.step > JournalStep ==> t == Quiet(s)
  {
    if p.step == NameStep && Coach.NonEmpty(text) then NameGiven(s, u, p, text.value)
    else if p.step == CountStep && Coach.NonEmpty(text) then CountGiven(s, w, u, p, text.value)
    else if p.step == ChatStep && Coach.NonEmpty(text) then
      Await([], Coach.Chat(s, u, w.chatAttempts), [Talk(text.value)])
    else if p.step == JournalStep && Coach.NonEmpty(text) then
      JournalKeepsProfiles(s, w, u, p, text.value);
      JournalAnswered(s, w, u, p, text.value)
    else Quiet(s)
  }

  /** Answering the journal adds or removes no profile. */
  lemma JournalKeepsProfiles(s: Store, w: World, u: UserId, p: Profile, text: string)
    ensures forall v :: v in JournalAnswered(s, w, u, p, text).store.users <==> v in s.users
  {
    var e := Coach.MorningJournal(s, u, Some(text), w.journalOpening, w.journalTurn, w.pdf);
    assert e.store.users == s.users;
  }

  /** Step 0: the text is the name. */
  function NameGiven(s: Store, u: UserId, p: Profile, name: string): Turn {
    match UpdateUser(s, u, Whole(p.(name := name, step := CountStep)))
    case Err(err) => Turn(s, [], {}, [], [], Err(err))
    case Ok(s2) => Turn(s2, Introduction(u, name), {}, [], [], Ok(()))
  }

  /** Step 1: the text is the number of reminders a day. */
  function CountGiven(s: Store, w: World, u: UserId, p: Profile, text: string): Turn {
    var count := w.toNumber(text);
    if RejectsCount(count) then Turn(s, [Say(u, CountReprompt)], {}, [], [], Ok(()))
    else ScheduleFor(s, w, u, p.name, count, [])
  }

  /** Step 3: the text answers the journal; completion moves the user to step 2. */
  function JournalAnswered(s: Store, w: World, u: UserId, p: Profile, text: string): Turn {
    var e := Coach.MorningJournal(s, u, Some(text), w.journalOpening, w.journalTurn, w.pdf);
    var calls := [AnswerJournal(text)];
    match e.result
    case Err(err) => Turn(e.store, e.out, {}, [], calls, Err(err))
    case Ok(done) =>
      if !done then Turn(e.store, e.out, {}, [], calls, Ok(()))
      else
        match UpdateUser(e.store, u, Whole(p.(step := ChatStep)))
        case Err(err) => Turn(e.store, e.out, {}, [], calls, Err(err))
        case Ok(s3) => Turn(s3, e.out, {}, [], calls, Ok(()))
  }

  // ---------------------------------------------------------------------------
  // handleCallback

  const ReminderStem: string := "setReminder"
  const ReminderPrefix: string := "setReminder-"

  /** `Number(data.split('-')[1] || 0)` for callback data that starts with
      `setReminder-`: the text after the first dash up to the next one, read
      as a number, with the empty text read as 0. */
  function CallbackCount(w: World, data: string): (c: JsNumber)
    requires StartsWith(data, ReminderPrefix)
    ensures var piece := Before(data[|ReminderPrefix|..], '-');
            c == if piece == "" then Num(0.0) else w.toNumber(piece)
  {
    assert data == ReminderStem + ['-'] + data[|ReminderPrefix|..];
    SplitAfter(ReminderStem, '-', data[|ReminderPrefix|..]);
    FirstPieceBefore(data[|ReminderPrefix|..], '-');
    var piece := Split(data, "-")[1];
    if piece == "" then Num(0.0) else w.toNumber(piece)
  }

  /** `handleCallback`: nothing for a user without a profile; for data
      starting with `setReminder-`, the keyboard is cleared and
      `createReminders` is started with the number after the dash, without
      any range check and without a step change. */
  function HandleCallback(s: Store, w: World, u: UserId, messageId: int, data: Option<string>): (t: Turn)
    ensures t.store.users == s.users
  {
    match GetUser(s, u)
    case None => Quiet(s)
    case Some(p) =>
      if data.Some? && StartsWith(data.value, ReminderPrefix) then
        ScheduleFor(s, w, u, p.name, CallbackCount(w, data.value), [ClearKeyboard(u, messageId)])
      else Quiet(s)
  }

  // ---------------------------------------------------------------------------
  // Properties of the transition

  /** `s` with the step of `u`'s profile, if any, replaced by `k`. */
  function WithStep(s: Store, u: UserId, k: int): Store {
    if u in s.users then s.(users := s.users[u := s.users[u].(step := k)]) else s
  }

  /** Commands bypass the step dispatch: what a command sends, which coach
      calls it makes and how it settles do not depend on the user's step. */
  lemma CommandsIgnoreStep(s: Store, w: World, chat: ChatInfo, text: string, k: int)
    requires StartsWith(text, "/")
    ensures var t1 := HandleMessage(s, w, chat, Some(text));
            var t2 := HandleMessage(WithStep(s, chat.id, k), w, chat, Some(text));
            t1.out == t2.out && t1.calls == t2.calls && t1.result == t2.result &&
            t1.cancelled == t2.cancelled && t1.scheduled == t2.scheduled
  {
    var s2 := WithStep(s, chat.id, k);
    var (a, p) := LoadOrCreate(s, chat, w.now);
    var (b, q) := LoadOrCreate(s2, chat, w.now);
    assert HandleMessage(s, w, chat, Some(text)) == HandleCommand(s, w, chat, text);
    assert HandleMessage(s2, w, chat, Some(text)) == HandleCommand(s2, w, chat, text);
    if text == "/start" {
    } else if StartsWith(text, "/talk") {
      TalkCommandEffects(a, w, chat.id, text);
      TalkCommandEffects(b, w, chat.id, text);
    } else if text == "/pdf_feature" {
      PdfCommandIgnoresStep(a, b, w, chat.id, p, q);
    }
  }

  /** The journal's opening does not depend on the stored profile or transcripts. */
  lemma PdfCommandIgnoresStep(a: Store, b: Store, w: World, u: UserId, p: Profile, q: Profile)
    requires u in a.users && u in b.users
    ensures var t1 := PdfCommand(a, w, u, p);
            var t2 := PdfCommand(b, w, u, q);
            t1.out == t2.out && t1.calls == t2.calls && t1.result == t2.result &&
            t1.cancelled == t2.cancelled && t1.scheduled == t2.scheduled
  {
  }

  /** The profile a handler works with: the stored one, or the one it creates. */
  function Loaded(s: Store, chat: ChatInfo, now: int): Profile {
    LoadOrCreate(s, chat, now).1
  }

  /** A user without a profile is created at step 0 under their display name
      before anything else; a message that is neither a command nor a name
      leaves them there. */
  lemma UnknownUserCreated(s: Store, w: World, chat: ChatInfo, text: Option<string>)
    requires chat.id !in s.users
    ensures Loaded(s, chat, w.now) == Profile(chat.id, DisplayName(chat), NameStep, w.now)
    ensures !IsCommand(text) && !Coach.NonEmpty(text) ==>
              HandleMessage(s, w, chat, text) == Quiet(CreateUser(s, chat.id, DisplayName(chat), w.now))
  {
  }

  /** `/start` from any step: the profile is kept with step 0, and the intro
      video and the name prompt are sent. */
  lemma StartResets(s: Store, w: World, chat: ChatInfo)
    ensures var t := HandleMessage(s, w, chat, Some("/start"));
            chat.id in t.store.users && t.store.users[chat.id] == Loaded(s, chat, w.now).(step := NameStep) &&
            t.out == [Video(chat.id, IntroVideoUrl, IntroVideoWidth, IntroVideoHeight), Say(chat.id, NamePrompt)] &&
            t.calls == [Hello] && t.result.Ok? && t.cancelled == {} && t.scheduled == [] &&
            t.store.histories == s.histories && t.store.reminders == s.reminders
  {
    assert IsCommand(Some("/start"));
  }

  /** `/talk x` reaches `TalkCommand`, whose message is `x` up to the next `/talk`, trimmed. */
  lemma TalkDispatch(s: Store, w: World, chat: ChatInfo, rest: string)
    ensures StartsWith("/talk" + rest, "/talk")
    ensures HandleMessage(s, w, chat, Some("/talk" + rest)) ==
            TalkCommand(LoadOrCreate(s, chat, w.now).0, w, chat.id, "/talk" + rest)
    ensures Split("/talk" + rest, "/talk")[1] == Split(rest, "/talk")[0]
  {
    var text := "/talk" + rest;
    assert StartsWith(text, "/") && StartsWith(text, "/talk");
    assert text != "/start" by {
      assert text[1] == 't';
    }
    SplitLeading(text, "/talk");
    assert text[5..] == rest;
  }

  /** The `/talk` branch: the chat's effects, and the one call. */
  lemma TalkCommandEffects(s: Store, w: World, u: UserId, text: string)
    requires StartsWith(text, "/talk")
    ensures var t := TalkCommand(s, w, u, text);
            var e := Coach.Chat(s, u, w.chatAttempts);
            t.calls == [Talk(Trim(Split(text, "/talk")[1]))] &&
            t.store == e.store && t.out == e.out && t.result.Ok? && t.store.users == s.users
  {
  }

  /** `/talk x`: the chat receives `x` up to the next `/talk`, trimmed; the
      profile is not touched and the chat's reply or apology is sent. */
  lemma TalkForwards(s: Store, w: World, chat: ChatInfo, rest: string)
    ensures var t := HandleMessage(s, w, chat, Some("/talk" + rest));
            var e := Coach.Chat(LoadOrCreate(s, chat, w.now).0, chat.id, w.chatAttempts);
            t.calls == [Talk(Trim(Split(rest, "/talk")[0]))] &&
            t.store == e.store && t.out == e.out && t.result.Ok? &&
            t.store.users == LoadOrCreate(s, chat, w.now).0.users
  {
    TalkDispatch(s, w, chat, rest);
    TalkCommandEffects(LoadOrCreate(s, chat, w.now).0, w, chat.id, "/talk" + rest);
  }

  lemma TrimStartSpaces()
    ensures TrimStart("  hi ") == "hi "
  {
    var x := "  hi ";
    assert x[1..] == " hi " && x[1..][1..] == "hi ";
    assert TrimStart("hi ") == "hi " by { assert !IsJsSpace('h'); }
    assert TrimStart(" hi ") == "hi ";
  }

  lemma TrimEndSpace()
    ensures TrimEnd("hi ") == "hi"
  {
    assert "hi "[..2] == "hi";
    assert TrimEnd("hi") == "hi" by { assert !IsJsSpace('i'); }
  }

  lemma SplitWithoutTalk()
    ensures Split("  hi ", "/talk") == ["  hi "]
  {
    var x := "  hi ";
    assert x[..5] != "/talk" by { assert x[0] == ' '; }
    assert x[1..] == " hi ";
    assert Split(x[1..], "/talk") == [" hi "];
    assert [x[0]] + " hi " == x;
  }

  /** The text `/talk  hi ` forwards. */
  lemma TalkPieceTrimmed()
    ensures Trim(Split("  hi ", "/talk")[0]) == "hi"
  {
    SplitWithoutTalk();
    TrimStartSpaces();
    TrimEndSpace();
  }

  lemma SplitAtTalk()
    ensures Split(" a/talk b", "/talk")[0] == " a"
  {
    var y := " a/talk b";
    assert y[..5] != "/talk" by { assert y[0] == ' '; }
    assert y[1..] == "a/talk b";
    assert "a/talk b"[..5] != "/talk" by { assert "a/talk b"[0] == 'a'; }
    assert "a/talk b"[1..] == "/talk b";
    assert "/talk b"[..5] == "/talk";
  }

  lemma TrimOneSpace()
    ensures Trim(" a") == "a"
  {
    assert " a"[1..] == "a";
    assert TrimStart("a") == "a" by { assert !IsJsSpace('a'); }
    assert TrimEnd("a") == "a" by { assert !IsJsSpace('a'); }
  }

  /** The text `/talk a/talk b` forwards: the piece before the second `/talk`. */
  lemma TalkPieceCut()
    ensures Trim(Split(" a/talk b", "/talk")[0]) == "a"
  {
    SplitAtTalk();
    TrimOneSpace();
  }

  /** Concretely: `/talk  hi ` sends `hi` to the chat, and `/talk a/talk b` sends `a`. */
  lemma TalkExamples(s: Store, w: World, chat: ChatInfo)
    ensures HandleMessage(s, w, chat, Some("/talk" + "  hi ")).calls == [Talk("hi")]
    ensures HandleMessage(s, w, chat, Some("/talk" + " a/talk b")).calls == [Talk("a")]
  {
    TalkPieceTrimmed();
    TalkForwards(s, w, chat, "  hi ");
    TalkPieceCut();
    TalkForwards(s, w, chat, " a/talk b");
  }

  /** `/pdf_feature` from any step: the profile is kept with step 3 and the
      journal opens; its opening question is sent when the model supplies one,
      and otherwise the handler rejects having sent nothing. */
  lemma PdfFeatureOpensJournal(s: Store, w: World, chat: ChatInfo)
    ensures var t := HandleMessage(s, w, chat, Some("/pdf_feature"));
            chat.id in t.store.users && t.store.users[chat.id] == Loaded(s, chat, w.now).(step := JournalStep) &&
            t.calls == [OpenJournal] && t.store.reminders == s.reminders
    ensures var t := HandleMessage(s, w, chat, Some("/pdf_feature"));
            forall k: nat :: Coach.OpensAt(w.journalOpening, k) ==>
              t.result.Ok? && t.out == [Say(chat.id, Generated(w.journalOpening(k).value.json.value.newMessageForUser))] &&
              GetChatHistory(t.store, chat.id, JournalTopic) == w.journalOpening(k).value.history
    ensures var t := HandleMessage(s, w, chat, Some("/pdf_feature"));
            (forall k: nat :: !Coach.OpensAt(w.journalOpening, k)) ==> t.result.Err? && t.out == []
  {
    var text := "/pdf_feature";
    assert IsCommand(Some(text)) && !StartsWith(text, "/talk") by {
      assert text[1] == 'p';
    }
  }

  /** Any other command only creates an absent user. */
  lemma OtherCommandsIdle(s: Store, w: World, chat: ChatInfo, text: string)
    requires StartsWith(text, "/") && !StartsWith(text, "/talk")
    requires text != "/start" && text != "/pdf_feature"
    ensures HandleMessage(s, w, chat, Some(text)) == Quiet(LoadOrCreate(s, chat, w.now).0)
  {
  }

  /** Step 0: the text becomes the name and the step 1, then the five
      introduction messages are sent, the last with the buttons
      `setReminder-1`, `setReminder-2` and `setReminder-3`. */
  lemma NameStepAdvances(s: Store, w: World, chat: ChatInfo, name: string)
    requires !IsCommand(Some(name)) && name != ""
    requires Loaded(s, chat, w.now).step == NameStep
    ensures var t := HandleMessage(s, w, chat, Some(name));
            chat.id in t.store.users &&
            t.store.users[chat.id] == Loaded(s, chat, w.now).(name := name, step := CountStep) &&
            t.result.Ok? && t.calls == [] && |t.out| == 5 && t.out[0] == Say(chat.id, Welcome(name)) &&
            t.out[4].Text? && t.out[4].body == HowManyReminders &&
            (forall i :: 0 <= i < 3 ==> t.out[4].buttons[i].data == ReminderPrefix + [('1' as int + i) as char]) &&
            |t.out[4].buttons| == 3
  {
  }

  /** The count check accepts exactly the numbers from 1 to 3, fractions included. */
  lemma CountCheck(c: JsNumber)
    ensures !RejectsCount(c) <==> c.Num? && 1.0 <= c.value <= 3.0
    ensures !RejectsCount(Num(1.5))
  {
  }

  /** Step 1: a rejected count re-prompts and changes nothing; an accepted one
      starts `createReminders` with it and leaves the step at 1. For the
      counts 1, 2 and 3 its effects are those of `createReminders`. */
  lemma CountStepSchedules(s: Store, w: World, chat: ChatInfo, text: string)
    requires !IsCommand(Some(text)) && text != ""
    requires Loaded(s, chat, w.now).step == CountStep
    ensures var t := HandleMessage(s, w, chat, Some(text));
            RejectsCount(w.toNumber(text)) ==>
              t == Turn(LoadOrCreate(s, chat, w.now).0, [Say(chat.id, CountReprompt)], {}, [], [], Ok(()))
    ensures var t := HandleMessage(s, w, chat, Some(text));
            !RejectsCount(w.toNumber(text)) ==>
              t.calls == [ScheduleReminders(Loaded(s, chat, w.now).name, w.toNumber(text))] && t.result.Ok? &&
              t.store.users == LoadOrCreate(s, chat, w.now).0.users
    ensures var t := HandleMessage(s, w, chat, Some(text));
            forall k: nat :: 1 <= k <= 3 && w.toNumber(text) == Num(k as real) ==>
              var e := Coach.CreateReminders(LoadOrCreate(s, chat, w.now).0, chat.id, k, w.now, w.reminderAttempts, w.suffix);
              t.store == e.store && t.out == e.out && t.scheduled == e.scheduled && t.cancelled == e.cancelled
  {
  }

  /** Step 2: the text goes to the chat and the step stays. */
  lemma ChatStepForwards(s: Store, w: World, chat: ChatInfo, text: string)
    requires !IsCommand(Some(text)) && text != ""
    requires Loaded(s, chat, w.now).step == ChatStep
    ensures var t := HandleMessage(s, w, chat, Some(text));
            var e := Coach.Chat(LoadOrCreate(s, chat, w.now).0, chat.id, w.chatAttempts);
            t.calls == [Talk(text)] && t.store == e.store && t.out == e.out && t.result.Ok?
  {
  }

  /** Step 3: the user moves to step 2 exactly when the journal returns true,
      and otherwise stays at 3. */
  lemma JournalStepCompletes(s: Store, w: World, chat: ChatInfo, text: string)
    requires !IsCommand(Some(text)) && text != ""
    requires Loaded(s, chat, w.now).step == JournalStep
    ensures var t := HandleMessage(s, w, chat, Some(text));
            var e := Coach.MorningJournal(LoadOrCreate(s, chat, w.now).0, chat.id, Some(text),
                                          w.journalOpening, w.journalTurn, w.pdf);
            chat.id in t.store.users && t.calls == [AnswerJournal(text)] && t.out == e.out &&
            (t.store.users[chat.id].step == ChatStep <==> e.result == Ok(true)) &&
            (t.store.users[chat.id].step == JournalStep <==> e.result != Ok(true)) &&
            (t.result.Ok? <==> e.result.Ok?)
  {
  }

  /** No text, or a step outside 0 to 3: only an absent user is created. */
  lemma OtherwiseIdle(s: Store, w: World, chat: ChatInfo, text: Option<string>)
    requires !IsCommand(text)
    requires !Coach.NonEmpty(text) || Loaded(s, chat, w.now).step !in {NameStep, CountStep, ChatStep, JournalStep}
    ensures HandleMessage(s, w, chat, text) == Quiet(LoadOrCreate(s, chat, w.now).0)
  {
  }

  /** A callback from a user without a profile changes nothing and sends nothing;
      so does one whose data does not start with `setReminder-`. */
  lemma CallbackIgnored(s: Store, w: World, u: UserId, messageId: int, data: Option<string>)
    requires u !in s.users || data.None? || !StartsWith(data.value, ReminderPrefix)
    ensures HandleCallback(s, w, u, messageId, data) == Quiet(s)
  {
  }

  /** `setReminder-d`, with `d` free of dashes: the keyboard is cleared and
      `createReminders` starts with `Number(d)` (0 for an empty `d`), whatever
      its size, and the step is not touched. A whole count `k`, even one the
      buttons never offer, starts `createReminders(k)`; a run that completes
      requests `7 * k` tasks. */
  lemma CallbackSchedules(s: Store, w: World, u: UserId, messageId: int, d: string)
    requires u in s.users
    requires forall i :: 0 <= i < |d| ==> d[i] != '-'
    ensures var t := HandleCallback(s, w, u, messageId, Some(ReminderPrefix + d));
            var count := if d == "" then Num(0.0) else w.toNumber(d);
            t.calls == [ScheduleReminders(s.users[u].name, count)] && t.result.Ok? &&
            t.store.users == s.users && |t.out| >= 1 && t.out[0] == ClearKeyboard(u, messageId)
    ensures var t := HandleCallback(s, w, u, messageId, Some(ReminderPrefix + d));
            forall k: nat :: d != "" && w.toNumber(d) == Num(k as real) ==>
              var e := Coach.CreateReminders(s, u, k, w.now, w.reminderAttempts, w.suffix);
              t.store == e.store && t.out == [ClearKeyboard(u, messageId)] + e.out &&
              (e.result.Ok? ==> |t.scheduled| == 7 * k)
  {
    var data := ReminderPrefix + d;
    assert StartsWith(data, ReminderPrefix);
    assert data[|ReminderPrefix|..] == d;
    var piece := Before(d, '-');
    assert piece == d;
    assert CallbackCount(w, data) == (if d == "" then Num(0.0) else w.toNumber(d));
    var t := HandleCallback(s, w, u, messageId, Some(data));
    assert t == ScheduleFor(s, w, u, s.users[u].name, CallbackCount(w, data), [ClearKeyboard(u, messageId)]);
  }

  // ---------------------------------------------------------------------------
  // Invariants

  /** Every stored step is one of the four. */
  predicate StepsInRange(s: Store) {
    forall v :: v in s.users ==> NameStep <= s.users[v].step <= JournalStep
  }

  /** Writing `u`'s whole profile with a step from 0 to 3 keeps every step in range. */
  lemma StepWriteInRange(s: Store, u: UserId, p: Profile, k: int)
    requires StepsInRange(s) && Wf(s) && u in s.users && NameStep <= k <= JournalStep
    ensures StepsInRange(UpdateUser(s, u, Whole(p.(step := k))).value)
    ensures Wf(UpdateUser(s, u, Whole(p.(step := k))).value)
  {
  }

  /** Handling a command keeps every step in range and the store well formed. */
  lemma CommandKeepsInvariants(s: Store, w: World, chat: ChatInfo, text: string)
    requires StepsInRange(s) && Wf(s)
    ensures StepsInRange(HandleCommand(s, w, chat, text).store)
    ensures Wf(HandleCommand(s, w, chat, text).store)
  {
    var t := HandleCommand(s, w, chat, text);
    var (s1, p) := LoadOrCreate(s, chat, w.now);
    assert StepsInRange(s1);
    if text == "/start" {
      StepWriteInRange(s1, chat.id, p, NameStep);
      var r := UpdateUser(s1, chat.id, Whole(p.(step := NameStep)));
      assert t.store == r.value;
    } else if StartsWith(text, "/talk") {
      assert t == TalkCommand(s1, w, chat.id, text);
      TalkCommandEffects(s1, w, chat.id, text);
      var e := Coach.Chat(s1, chat.id, w.chatAttempts);
      assert e.store.reminders == s1.reminders;
    } else if text == "/pdf_feature" {
      assert t == PdfCommand(s1, w, chat.id, p);
      PdfCommandEffects(s1, w, chat.id, p);
    }
  }

  lemma CountGivenKeepsInvariants(s: Store, w: World, u: UserId, p: Profile, text: string)
    requires StepsInRange(s) && Wf(s)
    ensures StepsInRange(CountGiven(s, w, u, p, text).store) && Wf(CountGiven(s, w, u, p, text).store)
  {
    var count := w.toNumber(text);
    if !RejectsCount(count) && WholeCount(count).Some? {
      Coach.CreateRemindersKeepsWf(s, u, WholeCount(count).value, w.now, w.reminderAttempts, w.suffix);
      var e := Coach.CreateReminders(s, u, WholeCount(count).value, w.now, w.reminderAttempts, w.suffix);
      assert CountGiven(s, w, u, p, text).store == e.store;
      assert e.store.users == s.users;
    } else {
      assert CountGiven(s, w, u, p, text).store == s;
    }
  }

  lemma JournalAnsweredKeepsInvariants(s: Store, w: World, u: UserId, p: Profile, text: string)
    requires StepsInRange(s) && Wf(s) && u in s.users
    ensures StepsInRange(JournalAnswered(s, w, u, p, text).store) && Wf(JournalAnswered(s, w, u, p, text).store)
  {
    var e := Coach.MorningJournal(s, u, Some(text), w.journalOpening, w.journalTurn, w.pdf);
    assert e.store.users == s.users && e.store.reminders == s.reminders;
    if e.result == Ok(true) {
      StepWriteInRange(e.store, u, p, ChatStep);
      assert JournalAnswered(s, w, u, p, text).store == UpdateUser(e.store, u, Whole(p.(step := ChatStep))).value;
    } else {
      assert JournalAnswered(s, w, u, p, text).store == e.store;
    }
  }

  /** The step dispatch keeps every step in range and the store well formed. */
  lemma ByStepKeepsInvariants(s: Store, w: World, u: UserId, p: Profile, text: Option<string>)
    requires StepsInRange(s) && Wf(s) && u in s.users
    ensures StepsInRange(ByStep(s, w, u, p, text).store)
    ensures Wf(ByStep(s, w, u, p, text).store)
  {
    if p.step == NameStep && Coach.NonEmpty(text) {
      StepWriteInRange(s, u, p.(name := text.value), CountStep);
      assert p.(name := text.value).(step := CountStep) == p.(name := text.value, step := CountStep);
      assert ByStep(s, w, u, p, text).store == UpdateUser(s, u, Whole(p.(name := text.value, step := CountStep))).value;
    } else if p.step == CountStep && Coach.NonEmpty(text) {
      CountGivenKeepsInvariants(s, w, u, p, text.value);
    } else if p.step == ChatStep && Coach.NonEmpty(text) {
      var e := Coach.Chat(s, u, w.chatAttempts);
      assert ByStep(s, w, u, p, text).store == e.store;
      assert e.store.users == s.users && e.store.reminders == s.reminders;
    } else if p.step == JournalStep && Coach.NonEmpty(text) {
      JournalAnsweredKeepsInvariants(s, w, u, p, text.value);
    }
  }

  /** Handling a message keeps every step in range and the store well formed. */
  lemma MessageKeepsInvariants(s: Store, w: World, chat: ChatInfo, text: Option<string>)
    requires StepsInRange(s) && Wf(s)
    ensures StepsInRange(HandleMessage(s, w, chat, text).store)
    ensures Wf(HandleMessage(s, w, chat, text).store)
  {
    var (s1, p) := LoadOrCreate(s, chat, w.now);
    assert StepsInRange(s1);
    if IsCommand(text) {
      CommandKeepsInvariants(s, w, chat, text.value);
    } else {
      ByStepKeepsInvariants(s1, w, chat.id, p, text);
    }
  }

  /** Handling a callback keeps every step in range and the store well formed. */
  lemma CallbackKeepsInvariants(s: Store, w: World, u: UserId, messageId: int, data: Option<string>)
    requires StepsInRange(s) && Wf(s)
    ensures StepsInRange(HandleCallback(s, w, u, messageId, data).store)
    ensures Wf(HandleCallback(s, w, u, messageId, data).store)
  {
    if u in s.users && data.Some? && StartsWith(data.value, ReminderPrefix) {
      var count := CallbackCount(w, data.value);
      if WholeCount(count).Some? {
        Coach.CreateRemindersKeepsWf(s, u, WholeCount(count).value, w.now, w.reminderAttempts, w.suffix);
      }
    }
  }

  /** `r` holds the same profile, transcripts and reminder records as `s` for `v`. */
  ghost predicate SameFor(s: Store, r: Store, v: UserId) {
    && GetUser(r, v) == GetUser(s, v)
    && GetChatHistory(r, v, ChatTopic) == GetChatHistory(s, v, ChatTopic)
    && GetChatHistory(r, v, JournalTopic) == GetChatHistory(s, v, JournalTopic)
    && (forall id :: (v, id) in s.reminders <==> (v, id) in r.reminders)
    && (forall id :: (v, id) in s.reminders ==> r.reminders[(v, id)] == s.reminders[(v, id)])
  }

  /** Writing `u`'s transcript under either topic keeps every other user's. */
  lemma TranscriptFrame(s: Store, u: UserId, topic: string, h: History, v: UserId)
    requires v != u && KnownTopic(topic)
    ensures SameFor(s, SetChatHistory(s, u, topic, h), v)
  {
    HistoryKeyInjective(v, ChatTopic, u, topic);
    HistoryKeyInjective(v, JournalTopic, u, topic);
  }

  /** A command touches only its sender. */
  lemma CommandTouchesOnlySender(s: Store, w: World, chat: ChatInfo, text: string, v: UserId)
    requires v != chat.id
    ensures SameFor(s, HandleCommand(s, w, chat, text).store, v)
  {
    var (s1, p) := LoadOrCreate(s, chat, w.now);
    assert SameFor(s, s1, v);
    DispatchFrame(s1, w, chat.id, p, text, v);
    assert HandleCommand(s, w, chat, text) == Dispatch(s1, w, chat.id, p, text);
    SameForTrans(s, s1, HandleCommand(s, w, chat, text).store, v);
  }

  lemma DispatchFrame(s: Store, w: World, u: UserId, p: Profile, text: string, v: UserId)
    requires v != u
    ensures SameFor(s, Dispatch(s, w, u, p, text).store, v)
  {
    var t := Dispatch(s, w, u, p, text);
    if text == "/start" {
      var r := UpdateUser(s, u, Whole(p.(step := NameStep)));
      if r.Ok? {
        assert t.store == r.value;
        assert GetUser(r.value, v) == GetUser(s, v);
      }
    } else if StartsWith(text, "/talk") {
      assert t == TalkCommand(s, w, u, text);
      TalkCommandEffects(s, w, u, text);
      ChatFrame(s, u, w.chatAttempts, v);
    } else if text == "/pdf_feature" {
      assert t == PdfCommand(s, w, u, p);
      PdfCommandFrame(s, w, u, p, v);
    }
  }

  lemma SameForTrans(a: Store, b: Store, c: Store, v: UserId)
    requires SameFor(a, b, v) && SameFor(b, c, v)
    ensures SameFor(a, c, v)
  {
  }

  /** The `/pdf_feature` branch touches only its user. */
  lemma PdfCommandFrame(s: Store, w: World, u: UserId, p: Profile, v: UserId)
    requires v != u
    ensures SameFor(s, PdfCommand(s, w, u, p).store, v)
  {
    var r := UpdateUser(s, u, Whole(p.(step := JournalStep)));
    if r.Ok? {
      assert GetUser(r.value, v) == GetUser(s, v);
      assert SameFor(s, r.value, v);
      JournalFrame(r.value, u, None, w, v);
    }
  }

  /** A chat turn touches only its user. */
  lemma ChatFrame(s: Store, u: UserId, attempts: nat -> Result<Coach.ChatReply>, v: UserId)
    requires v != u
    ensures SameFor(s, Coach.Chat(s, u, attempts).store, v)
  {
    var e := Coach.Chat(s, u, attempts);
    if e.store != s {
      var k: nat :| Coach.ChatAnswersAt(attempts, k);
      TranscriptFrame(s, u, ChatTopic, attempts(k).value.history, v);
    }
  }

  /** A journal turn touches only its user. */
  lemma JournalFrame(s: Store, u: UserId, message: Option<string>, w: World, v: UserId)
    requires v != u
    ensures SameFor(s, Coach.MorningJournal(s, u, message, w.journalOpening, w.journalTurn, w.pdf).store, v)
  {
    var e := Coach.MorningJournal(s, u, message, w.journalOpening, w.journalTurn, w.pdf);
    if e.store != s {
      if Coach.NonEmpty(message) {
        TranscriptFrame(s, u, JournalTopic, w.journalTurn.value.history, v);
      } else {
        var k: nat :| Coach.OpensAt(w.journalOpening, k);
        TranscriptFrame(s, u, JournalTopic, w.journalOpening(k).value.history, v);
      }
    }
  }

  lemma NameGivenFrame(s: Store, u: UserId, p: Profile, name: string, v: UserId)
    requires v != u && u in s.users
    ensures SameFor(s, NameGiven(s, u, p, name).store, v)
  {
    var r := UpdateUser(s, u, Whole(p.(name := name, step := CountStep)));
    assert NameGiven(s, u, p, name).store == r.value;
    assert GetUser(r.value, v) == GetUser(s, v);
  }

  lemma CountGivenFrame(s: Store, w: World, u: UserId, p: Profile, text: string, v: UserId)
    requires v != u
    ensures SameFor(s, CountGiven(s, w, u, p, text).store, v)
  {
    var count := w.toNumber(text);
    if !RejectsCount(count) {
      var t := ScheduleFor(s, w, u, p.name, count, []);
      assert CountGiven(s, w, u, p, text) == t;
      if WholeCount(count).Some? {
        var e := Coach.CreateReminders(s, u, WholeCount(count).value, w.now, w.reminderAttempts, w.suffix);
        RecordsOfOthersKept(s, e.store, u, v);
      }
    }
  }

  /** A store that differs from `s` only in `u`'s reminder records is the
      same as `s` for every other user. */
  lemma RecordsOfOthersKept(s: Store, r: Store, u: UserId, v: UserId)
    requires v != u
    requires r.users == s.users && r.histories == s.histories
    requires forall k :: k in s.reminders && k.0 != u ==> k in r.reminders && r.reminders[k] == s.reminders[k]
    requires forall k :: k in r.reminders && k.0 != u ==> k in s.reminders
    ensures SameFor(s, r, v)
  {
  }

  lemma JournalAnsweredFrame(s: Store, w: World, u: UserId, p: Profile, text: string, v: UserId)
    requires v != u && u in s.users
    ensures SameFor(s, JournalAnswered(s, w, u, p, text).store, v)
  {
    var e := Coach.MorningJournal(s, u, Some(text), w.journalOpening, w.journalTurn, w.pdf);
    JournalFrame(s, u, Some(text), w, v);
    if e.result == Ok(true) {
      var r := UpdateUser(e.store, u, Whole(p.(step := ChatStep)));
      assert JournalAnswered(s, w, u, p, text).store == r.value;
      assert GetUser(r.value, v) == GetUser(e.store, v);
    } else {
      assert JournalAnswered(s, w, u, p, text).store == e.store;
    }
  }

  /** The step dispatch touches only the sender. */
  lemma ByStepTouchesOnlySender(s: Store, w: World, u: UserId, p: Profile, text: Option<string>, v: UserId)
    requires v != u && u in s.users
    ensures SameFor(s, ByStep(s, w, u, p, text).store, v)
  {
    if p.step == NameStep && Coach.NonEmpty(text) {
      NameGivenFrame(s, u, p, text.value, v);
    } else if p.step == CountStep && Coach.NonEmpty(text) {
      CountGivenFrame(s, w, u, p, text.value, v);
    } else if p.step == ChatStep && Coach.NonEmpty(text) {
      assert ByStep(s, w, u, p, text).store == Coach.Chat(s, u, w.chatAttempts).store;
      ChatFrame(s, u, w.chatAttempts, v);
    } else if p.step == JournalStep && Coach.NonEmpty(text) {
      JournalAnsweredFrame(s, w, u, p, text.value, v);
    }
  }

  /** A message touches only its sender: every other user's profile,
      transcripts and reminder records are as they were. */
  lemma MessageTouchesOnlySender(s: Store, w: World, chat: ChatInfo, text: Option<string>, v: UserId)
    requires v != chat.id
    ensures SameFor(s, HandleMessage(s, w, chat, text).store, v)
  {
    var (s1, p) := LoadOrCreate(s, chat, w.now);
    assert SameFor(s, s1, v);
    if IsCommand(text) {
      CommandTouchesOnlySender(s, w, chat, text.value, v);
    } else {
      ByStepTouchesOnlySender(s1, w, chat.id, p, text, v);
    }
  }
}

=== FILE: response.dfy ===
/** Outbound messages: the `Response` tagged union of src/coach.ts (text,
    video, file), plus the Telegram calls src/index.ts makes directly. */
module Response {
  import opened Store

  const IntroVideoUrl: string := "https://storage.googleapis.com/ivf-coach-videos/intro-v2.mp4"
  const IntroVideoWidth: int := 720
  const IntroVideoHeight: int := 1280

  /** An inline-keyboard button: its caption and its callback data. */
  datatype Button = Button(caption: string, data: string)

  /** What a text message says: generated content verbatim, or one of the
      bot's fixed texts (with the values interpolated into it). */
  datatype Body =
    | Generated(text: string)          // a chat reply or a journal question
    | NamePrompt                       // "What's your name?" after the intro video
    | ChatApology                      // the chat fallback when generation fails
    | RemindersChosen(count: int)      // "Great choice! You'll receive {count} reminders each day ..."
    | EnableNotifications              // the notification nudge
    | JourneyClosing                   // "Looking forward to walking with you ..."
    | PdfReady                         // "Great! Here is your PDF"
    | Welcome(name: string)            // "Thank you, {name}! ..."
    | CoachIntro                       // "As your personal coach ..."
    | DailyReminders                   // "Each day, I'll send gentle reminders ..."
    | NotTherapy                       // "... complements but doesn't replace therapy ..."
    | HowManyReminders                 // "... up to three reminders a day. How many ...?"
    | CountReprompt                    // "Please enter either 1, 2 or 3 ..."

  datatype Outbound =
    | Text(to: UserId, body: Body, buttons: seq<Button>)
    | Video(to: UserId, url: string, width: int, height: int)
    | File(to: UserId, path: string)
    | ClearKeyboard(to: UserId, messageId: int)   // editMessageReplyMarkup with an empty keyboard

  /** A plain text message without buttons. */
  function Say(to: UserId, body: Body): Outbound {
    Text(to, body, [])
  }
}

=== FILE: retry.dfy ===
/** The bounded, constant-interval retry helper of src/utils.ts. */
module Retry {
  import opened Base

  /** What one `retry` call amounts to: how its promise settled, how many times
      the wrapped function was invoked, and the delays waited between invocations. */
  datatype Run<T> = Run(settled: Result<T>, calls: nat, waits: seq<int>)

  /** Invocations `retry` may make: the first one plus one per retry left
      (a budget of zero or less still makes the first invocation). */
  function Budget(retriesLeft: int): nat {
    if retriesLeft > 0 then retriesLeft + 1 else 1
  }

  /** `retry` resumed at invocation `next`: invocation `k` of the wrapped
      function settles as `script(k)`. On a failure with retries left it waits
      `interval` and recurses with one retry fewer; otherwise it settles with
      the outcome of the invocation it just made. */
  function RetryFrom<T>(script: nat -> Result<T>, next: nat, retriesLeft: int, interval: int): (r: Run<T>)
    ensures 1 <= r.calls <= Budget(retriesLeft)
    ensures |r.waits| == r.calls - 1
    ensures forall k :: 0 <= k < |r.waits| ==> r.waits[k] == interval
    ensures forall k :: next <= k < next + r.calls - 1 ==> script(k).Err?
    ensures r.settled == script(next + r.calls - 1)
    ensures r.settled.Err? ==> r.calls == Budget(retriesLeft)
    decreases if retriesLeft > 0 then retriesLeft else 0
  {
    match script(next)
    case Ok(v) => Run(Ok(v), 1, [])
    case Err(e) =>
      if retriesLeft > 0 then
        var rest := RetryFrom(script, next + 1, retriesLeft - 1, interval);
        Run(rest.settled, rest.calls + 1, [interval] + rest.waits)
      else
        Run(Err(e), 1, [])
  }

  /** `retry(fn, retriesLeft, interval)`: settles with the first success among
      the first `Budget(retriesLeft)` invocations, or with the error of the last
      one; every invocation but the first is preceded by one wait of `interval`. */
  function Retry<T>(script: nat -> Result<T>, retriesLeft: int, interval: int): (r: Run<T>)
    ensures 1 <= r.calls <= Budget(retriesLeft)
    ensures |r.waits| == r.calls - 1
    ensures forall k :: 0 <= k < |r.waits| ==> r.waits[k] == interval
    ensures forall k :: 0 <= k < r.calls - 1 ==> script(k).Err?
    ensures r.settled == script(r.calls - 1)
    ensures r.settled.Err? ==> r.calls == Budget(retriesLeft)
  {
    RetryFrom(script, 0, retriesLeft, interval)
  }

  /** Invocation `k` is the first one that succeeds. */
  predicate FirstSuccessAt<T>(script: nat -> Result<T>, k: nat) {
    script(k).Ok? && forall m :: 0 <= m < k ==> script(m).Err?
  }

  /** `retry` settles on the first success within its budget. */
  lemma SettlesOnFirstSuccess<T>(script: nat -> Result<T>, retriesLeft: int, interval: int)
    ensures forall k: nat :: k < Budget(retriesLeft) && FirstSuccessAt(script, k) ==>
              Retry(script, retriesLeft, interval).calls == k + 1 &&
              Retry(script, retriesLeft, interval).settled == script(k)
    ensures Retry(script, retriesLeft, interval).settled.Ok? ==>
              FirstSuccessAt(script, Retry(script, retriesLeft, interval).calls - 1)
  {
  }

  /** A first invocation that succeeds is the only one, and `retry` resolves with its value. */
  lemma FirstSuccessIsFinal<T>(script: nat -> Result<T>, retriesLeft: int, interval: int)
    requires script(0).Ok?
    ensures Retry(script, retriesLeft, interval) == Run(script(0), 1, [])
  {
  }

  /** `K` failures followed by a success, with `K` within the retry budget:
      `retry` resolves with that success after exactly `K + 1` invocations. */
  lemma SucceedsAfterFailures<T>(script: nat -> Result<T>, retriesLeft: int, interval: int, failures: nat)
    requires failures <= retriesLeft
    requires FirstSuccessAt(script, failures)
    ensures Retry(script, retriesLeft, interval).calls == failures + 1
    ensures Retry(script, retriesLeft, interval).settled == script(failures)
  {
  }

  /** More failures in a row than retries left: `retry` rejects with the error of
      the last invocation after exactly `Budget(retriesLeft)` invocations. */
  lemma RejectsWhenExhausted<T>(script: nat -> Result<T>, retriesLeft: int, interval: int)
    requires forall k :: 0 <= k < Budget(retriesLeft) ==> script(k).Err?
    ensures Retry(script, retriesLeft, interval).calls == Budget(retriesLeft)
    ensures Retry(script, retriesLeft, interval).settled == script(Budget(retriesLeft) - 1)
    ensures Retry(script, retriesLeft, interval).settled.Err?
  {
    var r := Retry(script, retriesLeft, interval);
    assert script(r.calls - 1).Err?;
  }

  /** With no retries left there is exactly one invocation and no wait. */
  lemma NoRetryWithoutBudget<T>(script: nat -> Result<T>, retriesLeft: int, interval: int)
    requires retriesLeft <= 0
    ensures Retry(script, retriesLeft, interval) == Run(script(0), 1, [])
  {
  }
}

=== FILE: schedule.dfy ===
/** Slot times of a reminder batch (src/coach.ts, the day/slot loop of
    `createReminders`). Times are integer epoch milliseconds; the UTC field
    setters of JavaScript's `Date` are written out on them. */
module Schedule {

  const SecondMs: int := 1000
  const MinuteMs: int := 60_000
  const HourMs: int := 3_600_000
  const DayMs: int := 86_400_000

  /** Minutes between consecutive slots of one day. */
  const SlotSpacingMinutes: int := 20
  /** Rounds in one batch; round `i` falls `i + 1` hours after `now`'s hour. */
  const Days: nat := 7

  // ---------------------------------------------------------------------------
  // UTC field accessors and setters of `Date` (floor-based, so they also hold
  // for instants before the epoch: Dafny's `%` by a positive constant floors)

  function UtcHours(t: int): int {
    (t % DayMs) / HourMs
  }

  function UtcMinutes(t: int): int {
    (t % HourMs) / MinuteMs
  }

  /** The time of day splits into the hour field and the rest of the hour. */
  lemma {:induction false} DayFields(t: int)
    ensures t % DayMs == UtcHours(t) * HourMs + t % HourMs
    ensures 0 <= UtcHours(t) < 24
  {
    var r := t % DayMs;
    var h := r / HourMs;
    assert r == h * HourMs + r % HourMs;
    assert t == (t / DayMs) * DayMs + r;
    assert t % HourMs == r % HourMs by {
      assert t == (t / DayMs * 24 + h) * HourMs + r % HourMs;
      assert 0 <= r % HourMs < HourMs;
    }
  }

  /** The time within the hour splits into the minute field and the rest of the minute. */
  lemma {:induction false} HourFields(t: int)
    ensures t % HourMs == UtcMinutes(t) * MinuteMs + t % MinuteMs
    ensures 0 <= UtcMinutes(t) < 60
  {
    var r := t % HourMs;
    var m := r / MinuteMs;
    assert r == m * MinuteMs + r % MinuteMs;
    assert t == (t / HourMs) * HourMs + r;
    assert t % MinuteMs == r % MinuteMs by {
      assert t == (t / HourMs * 60 + m) * MinuteMs + r % MinuteMs;
      assert 0 <= r % MinuteMs < MinuteMs;
    }
  }

  /** `setUTCHours(h)`: replaces the hour field, keeps minutes, seconds and
      milliseconds; an hour outside `0 ..< 24` carries into the date. */
  function SetUtcHours(t: int, h: int): (r: int)
    ensures r == t + (h - UtcHours(t)) * HourMs
    ensures r % HourMs == t % HourMs
    ensures 0 <= h < 24 ==> UtcHours(r) == h && r - r % DayMs == t - t % DayMs
  {
    DayFields(t);
    ModByHour(t, h - UtcHours(t));
    var r := t - t % DayMs + h * HourMs + t % HourMs;
    if 0 <= h < 24 then HourFieldSet(t, h, r); r else r
  }

  lemma {:induction false} HourFieldSet(t: int, h: int, r: int)
    requires 0 <= h < 24 && r == t - t % DayMs + h * HourMs + t % HourMs
    ensures UtcHours(r) == h && r - r % DayMs == t - t % DayMs
  {
    assert r == (t / DayMs) * DayMs + (h * HourMs + t % HourMs);
    assert 0 <= h * HourMs + t % HourMs < DayMs;
  }

  /** `setUTCMinutes(m)`: replaces the minute field, keeps seconds and
      milliseconds; a value of 60 or more carries into the hour. */
  function SetUtcMinutes(t: int, m: int): (r: int)
    ensures r == t + (m - UtcMinutes(t)) * MinuteMs
    ensures r % MinuteMs == t % MinuteMs
    ensures 0 <= m < 60 ==> UtcMinutes(r) == m && FloorHour(r) == FloorHour(t)
  {
    HourFields(t);
    ModByMinute(t, m - UtcMinutes(t));
    var r := t - t % HourMs + m * MinuteMs + t % MinuteMs;
    if 0 <= m < 60 then MinuteFieldSet(t, m, r); r else r
  }

  lemma {:induction false} MinuteFieldSet(t: int, m: int, r: int)
    requires 0 <= m < 60 && r == t - t % HourMs + m * MinuteMs + t % MinuteMs
    ensures UtcMinutes(r) == m && FloorHour(r) == FloorHour(t)
  {
    assert r == (t / HourMs) * HourMs + (m * MinuteMs + t % MinuteMs);
    assert 0 <= m * MinuteMs + t % MinuteMs < HourMs;
  }

  /** `setUTCSeconds(s)`: replaces the second field, keeps milliseconds. */
  function SetUtcSeconds(t: int, s: int): int {
    t - t % MinuteMs + s * SecondMs + t % SecondMs
  }

  /** `setUTCMilliseconds(ms)`. */
  function SetUtcMilliseconds(t: int, ms: int): int {
    t - t % SecondMs + ms
  }

  /** Start of the UTC hour containing `t`. */
  function FloorHour(t: int): int {
    t - t % HourMs
  }

  // ---------------------------------------------------------------------------
  // The loop as written

  /** `day` of round `i`: a fresh `Date` at `now` whose hour field is moved
      `i + 1` ahead (the date itself is never set), so the instant moves
      exactly `i + 1` hours, across midnight when the hour passes 23. */
  function DayStart(now: int, i: nat): (r: int)
    ensures r == now + (i + 1) * HourMs
    ensures r % HourMs == now % HourMs
  {
    SetUtcHours(now, UtcHours(now) + i + 1)
  }

  /** The three setters applied to `day` for slot `j`: minutes `j * 20`,
      seconds and milliseconds 0. The result lands on minute `j * 20` counted
      from the start of `day`'s hour, with the seconds part dropped. */
  function Stamp(day: int, j: nat): (r: int)
    ensures r == FloorHour(day) + j * SlotSpacingMinutes * MinuteMs
  {
    StampArithmetic(day, j * SlotSpacingMinutes);
    SetUtcMilliseconds(SetUtcSeconds(SetUtcMinutes(day, j * SlotSpacingMinutes), 0), 0)
  }

  /** One scheduled slot: day `day`, position `pos` within the day, content
      index `pos + day * count`, and the delivery time. */
  datatype Slot = Slot(day: nat, pos: nat, index: nat, time: int)

  /** Slots `j ..< count` of day `i`, where `day` is the value of the mutable
      `Date` before slot `j` is stamped (each stamp mutates it in place). */
  function DaySlots(count: nat, i: nat, j: nat, day: int): seq<Slot>
    decreases count - j
  {
    if j >= count then []
    else
      var t := Stamp(day, j);
      [Slot(i, j, j + i * count, t)] + DaySlots(count, i, j + 1, t)
  }

  /** Slots of days `i ..< 7`, in the loop's order. */
  function RoundSlotsFrom(now: int, count: nat, i: nat): seq<Slot>
    decreases Days - i
  {
    if i >= Days then []
    else DaySlots(count, i, 0, DayStart(now, i)) + RoundSlotsFrom(now, count, i + 1)
  }

  /** Every slot of a batch of `count` reminders a day, in creation order. */
  function Slots(now: int, count: nat): (slots: seq<Slot>)
    ensures |slots| == Days * count
  {
    RoundSlotsShape(now, count, 0);
    RoundSlotsFrom(now, count, 0)
  }

  /** The closed-form slot time: `now`'s hour, plus `i + 1` hours, plus `j * 20` minutes. */
  function NominalTime(now: int, i: int, j: int): int {
    FloorHour(now) + (i + 1) * HourMs + j * SlotSpacingMinutes * MinuteMs
  }

  // ---------------------------------------------------------------------------
  // Arithmetic of the setters

  lemma ModByHour(t: int, k: int)
    ensures (t + k * HourMs) % HourMs == t % HourMs
  {
  }

  lemma ModByMinute(t: int, k: int)
    ensures (t + k * MinuteMs) % MinuteMs == t % MinuteMs
  {
  }

  lemma ModBySecond(t: int, k: int)
    ensures (t + k * SecondMs) % SecondMs == t % SecondMs
  {
  }

  /** The start of an hour is a whole number of minutes and of seconds. */
  lemma {:induction false} FloorHourAligned(day: int)
    ensures FloorHour(day) % MinuteMs == 0
    ensures FloorHour(day) % SecondMs == 0
  {
    var k := day / HourMs;
    assert FloorHour(day) == k * HourMs;
    ModByMinute(0, k * 60);
    ModBySecond(0, k * 3600);
  }

  /** `setUTCMinutes` keeps the seconds-and-milliseconds part of the instant. */
  lemma {:induction false} SetMinutesKeepsRest(day: int, m: int)
    ensures SetUtcMinutes(day, m) % MinuteMs == day % MinuteMs
    ensures SetUtcMinutes(day, m) == FloorHour(day) + m * MinuteMs + day % MinuteMs
  {
    FloorHourAligned(day);
    var base := FloorHour(day) + m * MinuteMs;
    assert base == (FloorHour(day) / MinuteMs + m) * MinuteMs;
    ModByMinute(day % MinuteMs, FloorHour(day) / MinuteMs + m);
  }

  /** Zeroing seconds then milliseconds of `base + rest`, where `base` is a
      whole number of minutes and `0 <= rest < MinuteMs`, leaves `base`. */
  lemma {:induction false} ClearSeconds(base: int, rest: int)
    requires base % MinuteMs == 0
    requires 0 <= rest < MinuteMs
    ensures SetUtcMilliseconds(SetUtcSeconds(base + rest, 0), 0) == base
  {
    var q := base / MinuteMs;
    assert base == q * MinuteMs;
    assert base == (q * 60) * SecondMs;
    var a := base + rest;
    ModByMinute(rest, q);
    assert a % MinuteMs == rest;
    var r := rest % SecondMs;
    ModBySecond(rest, q * 60);
    assert a % SecondMs == r;
    var b := SetUtcSeconds(a, 0);
    assert b == base + r;
    ModBySecond(r, q * 60);
    assert b % SecondMs == r;
  }

  /** Minutes `m`, then seconds 0, then milliseconds 0: minute `m` counted
      from the start of `day`'s hour. */
  lemma {:induction false} StampArithmetic(day: int, m: int)
    ensures SetUtcMilliseconds(SetUtcSeconds(SetUtcMinutes(day, m), 0), 0) == FloorHour(day) + m * MinuteMs
  {
    SetMinutesKeepsRest(day, m);
    FloorHourAligned(day);
    var base := FloorHour(day) + m * MinuteMs;
    ModByMinute(0, FloorHour(day) / MinuteMs + m);
    ClearSeconds(base, day % MinuteMs);
  }

  /** The hour a stamp lands in: the same hour for `j <= 2`, the next one from `j = 3` on. */
  lemma {:induction false} StampHour(day: int, j: nat)
    ensures FloorHour(Stamp(day, j)) == FloorHour(day) + (j * SlotSpacingMinutes / 60) * HourMs
  {
    var m := j * SlotSpacingMinutes;
    var q := m / 60;
    assert m * MinuteMs == q * HourMs + (m % 60) * MinuteMs;
    var hour := FloorHour(day);
    assert hour % HourMs == 0 by {
      ModByHour(0, day / HourMs);
    }
    ModByHour((m % 60) * MinuteMs, hour / HourMs + q);
  }

  // ---------------------------------------------------------------------------
  // Shape of a batch: how many slots, and which content index each one uses

  lemma {:induction false} DaySlotsShape(count: nat, i: nat, j: nat, day: int)
    requires j <= count
    ensures |DaySlots(count, i, j, day)| == count - j
    ensures forall k :: 0 <= k < count - j ==>
              DaySlots(count, i, j, day)[k].day == i &&
              DaySlots(count, i, j, day)[k].pos == j + k &&
              DaySlots(count, i, j, day)[k].index == j + k + i * count
    decreases count - j
  {
    if j < count {
      var t := Stamp(day, j);
      DaySlotsShape(count, i, j + 1, t);
    }
  }

  lemma MulSucc(a: int, c: int)
    ensures (a + 1) * c == a * c + c
  {
  }

  /** The day's slots followed by the later days' slots: the shape of days `i ..< 7`. */
  lemma ShapeOfConcat(d: seq<Slot>, w: seq<Slot>, count: nat, i: nat, base: int)
    requires base == i * count && (i + 1) * count == base + count
    requires |d| == count
    requires forall k :: 0 <= k < count ==> d[k].day == i && d[k].pos == k && d[k].index == k + base
    requires forall n :: 0 <= n < |w| ==>
               w[n].index == n + (i + 1) * count && w[n].index == w[n].pos + w[n].day * count &&
               w[n].pos < count && i + 1 <= w[n].day < Days
    requires i < Days
    ensures forall n :: 0 <= n < |d + w| ==>
              (d + w)[n].index == n + base && (d + w)[n].index == (d + w)[n].pos + (d + w)[n].day * count &&
              (d + w)[n].pos < count && i <= (d + w)[n].day < Days
  {
    forall n | 0 <= n < |d + w|
      ensures (d + w)[n].index == n + base && (d + w)[n].index == (d + w)[n].pos + (d + w)[n].day * count
      ensures (d + w)[n].pos < count && i <= (d + w)[n].day < Days
    {
      if n < count {
        assert (d + w)[n] == d[n];
      } else {
        assert (d + w)[n] == w[n - count];
      }
    }
  }

  lemma {:induction false} RoundSlotsShape(now: int, count: nat, i: nat)
    requires i <= Days
    ensures |RoundSlotsFrom(now, count, i)| == (Days - i) * count
    ensures forall n :: 0 <= n < |RoundSlotsFrom(now, count, i)| ==>
              var sl := RoundSlotsFrom(now, count, i)[n];
              sl.index == n + i * count && sl.index == sl.pos + sl.day * count &&
              sl.pos < count && i <= sl.day < Days
    decreases Days - i
  {
    if i < Days {
      var d: seq<Slot> := DaySlots(count, i, 0, DayStart(now, i));
      DaySlotsShape(count, i, 0, DayStart(now, i));
      RoundSlotsShape(now, count, i + 1);
      var w: seq<Slot> := RoundSlotsFrom(now, count, i + 1);
      assert RoundSlotsFrom(now, count, i) == d + w;
      MulSucc(Days - (i + 1), count);
      assert |d + w| == (Days - i) * count;
      MulSucc(i, count);
      ShapeOfConcat(d, w, count, i, i * count);
    }
  }

  /** A batch has `7 * count` slots; slot `n` is day `n / count`, position
      `n % count`, and its content index `pos + day * count` is `n` itself, so
      the indices cover `0 ..< 7 * count` once each, in order. */
  lemma SlotsShape(now: int, count: nat)
    ensures |Slots(now, count)| == Days * count
    ensures forall n :: 0 <= n < |Slots(now, count)| ==>
              var sl := Slots(now, count)[n];
              sl.index == n && sl.index == sl.pos + sl.day * count && sl.pos < count && sl.day < Days
  {
    RoundSlotsShape(now, count, 0);
  }

  // ---------------------------------------------------------------------------
  // Slot times

  lemma {:induction false} DaySlotsTimes(count: nat, i: nat, j: nat, day: int)
    requires count <= 4 && j <= count
    ensures forall k :: 0 <= k < |DaySlots(count, i, j, day)| ==>
              DaySlots(count, i, j, day)[k].time ==
              FloorHour(day) + DaySlots(count, i, j, day)[k].pos * SlotSpacingMinutes * MinuteMs
    decreases count - j
  {
    DaySlotsShape(count, i, j, day);
    if j < count {
      var t := Stamp(day, j);
      DaySlotsTimes(count, i, j + 1, t);
      if j + 1 < count {
        StampHour(day, j);
        assert j * SlotSpacingMinutes / 60 == 0;
      }
    }
  }

  lemma {:induction false} RoundSlotsTimes(now: int, count: nat, i: nat)
    requires count <= 4 && i <= Days
    ensures forall n :: 0 <= n < |RoundSlotsFrom(now, count, i)| ==>
              var sl := RoundSlotsFrom(now, count, i)[n];
              sl.time == NominalTime(now, sl.day, sl.pos)
    decreases Days - i
  {
    if i < Days {
      var start := DayStart(now, i);
      ModByHour(now, i + 1);
      assert FloorHour(start) == FloorHour(now) + (i + 1) * HourMs;
      DaySlotsTimes(count, i, 0, start);
      DaySlotsShape(count, i, 0, start);
      RoundSlotsTimes(now, count, i + 1);
    }
  }

  /** For up to four reminders a day, slot `(i, j)` is due exactly `i + 1`
      hours plus `j * 20` minutes after the start of `now`'s hour. Only the
      fourth slot of a round carries the mutable `Date` into the next hour, and
      no slot of that round is stamped after it. */
  lemma SlotTimes(now: int, count: nat)
    requires count <= 4
    ensures forall n :: 0 <= n < |Slots(now, count)| ==>
              Slots(now, count)[n].time == NominalTime(now, Slots(now, count)[n].day, Slots(now, count)[n].pos)
  {
    RoundSlotsTimes(now, count, 0);
  }

  lemma {:induction false} DaySlotsAligned(count: nat, i: nat, j: nat, day: int)
    ensures forall k :: 0 <= k < |DaySlots(count, i, j, day)| ==> DaySlots(count, i, j, day)[k].time % MinuteMs == 0
    decreases count - j
  {
    if j < count {
      var t := Stamp(day, j);
      FloorHourAligned(day);
      ModByMinute(0, FloorHour(day) / MinuteMs + j * SlotSpacingMinutes);
      DaySlotsAligned(count, i, j + 1, t);
    }
  }

  lemma {:induction false} RoundSlotsAligned(now: int, count: nat, i: nat)
    ensures forall n :: 0 <= n < |RoundSlotsFrom(now, count, i)| ==> RoundSlotsFrom(now, count, i)[n].time % MinuteMs == 0
    decreases Days - i
  {
    if i < Days {
      DaySlotsAligned(count, i, 0, DayStart(now, i));
      RoundSlotsAligned(now, count, i + 1);
    }
  }

  /** Whatever the count, every slot time has zero UTC seconds and milliseconds,
      so the task's `scheduleTime.seconds` (the time divided by 1000, floored)
      is the slot time exactly. */
  lemma SlotsOnWholeMinutes(now: int, count: nat)
    ensures forall n :: 0 <= n < |Slots(now, count)| ==>
              Slots(now, count)[n].time % MinuteMs == 0 &&
              (Slots(now, count)[n].time / SecondMs) * SecondMs == Slots(now, count)[n].time
  {
    var slots := Slots(now, count);
    RoundSlotsAligned(now, count, 0);
    forall n | 0 <= n < |slots|
      ensures (slots[n].time / SecondMs) * SecondMs == slots[n].time
    {
      WholeMinuteWholeSecond(slots[n].time);
    }
  }

  /** A whole number of minutes is a whole number of seconds. */
  lemma WholeMinuteWholeSecond(t: int)
    requires t % MinuteMs == 0
    ensures (t / SecondMs) * SecondMs == t
  {
    var k := t / MinuteMs;
    assert t == (k * 60) * SecondMs;
    ModBySecond(0, k * 60);
  }

  // ---------------------------------------------------------------------------
  // Ordering

  predicate Increasing(s: seq<Slot>) {
    forall m, n :: 0 <= m < n < |s| ==> s[m].time < s[n].time
  }

  /** For positions 0 to 2, a slot of day `i` is due within hour `i + 1` after `now`'s hour. */
  lemma NominalInHour(now: int, i: nat, j: nat)
    requires j <= 2
    ensures FloorHour(now) + (i + 1) * HourMs <= NominalTime(now, i, j) < FloorHour(now) + (i + 2) * HourMs
  {
    if j == 0 {
    } else if j == 1 {
    } else {
      assert j * SlotSpacingMinutes * MinuteMs == 2_400_000;
    }
  }

  /** Later positions of one day are due later. */
  lemma NominalMonotone(now: int, i: nat, j1: nat, j2: nat)
    requires j1 < j2
    ensures NominalTime(now, i, j1) < NominalTime(now, i, j2)
  {
    assert j2 * SlotSpacingMinutes * MinuteMs == j1 * SlotSpacingMinutes * MinuteMs + (j2 - j1) * SlotSpacingMinutes * MinuteMs;
  }

  /** Concatenating two increasing runs, all of the first before `bound` and
      all of the second from `bound` on, gives an increasing run. */
  lemma ConcatIncreasing(d: seq<Slot>, w: seq<Slot>, bound: int)
    requires Increasing(d) && Increasing(w)
    requires forall k :: 0 <= k < |d| ==> d[k].time < bound
    requires forall k :: 0 <= k < |w| ==> w[k].time >= bound
    ensures Increasing(d + w)
  {
    forall m, n | 0 <= m < n < |d + w|
      ensures (d + w)[m].time < (d + w)[n].time
    {
      if n < |d| {
        assert (d + w)[m] == d[m] && (d + w)[n] == d[n];
      } else if m < |d| {
        assert (d + w)[m] == d[m] && (d + w)[n] == w[n - |d|];
      } else {
        assert (d + w)[m] == w[m - |d|] && (d + w)[n] == w[n - |d|];
      }
    }
  }

  /** The hour `DayStart(now, i)` falls in is `i + 1` hours after `now`'s. */
  lemma DayStartHour(now: int, i: nat)
    ensures FloorHour(DayStart(now, i)) == FloorHour(now) + (i + 1) * HourMs
  {
    ModByHour(now, i + 1);
  }

  /** For up to three reminders a day, the slots of day `i` increase and all
      fall within hour `i + 1` after `now`'s hour. */
  lemma DayOrdered(now: int, count: nat, i: nat)
    requires count <= 3
    ensures Increasing(DaySlots(count, i, 0, DayStart(now, i)))
    ensures forall k :: 0 <= k < |DaySlots(count, i, 0, DayStart(now, i))| ==>
              FloorHour(now) + (i + 1) * HourMs <= DaySlots(count, i, 0, DayStart(now, i))[k].time < FloorHour(now) + (i + 2) * HourMs
  {
    var d: seq<Slot> := DaySlots(count, i, 0, DayStart(now, i));
    DaySlotsTimes(count, i, 0, DayStart(now, i));
    DaySlotsShape(count, i, 0, DayStart(now, i));
    DayStartHour(now, i);
    forall k | 0 <= k < |d|
      ensures d[k].time == NominalTime(now, i, d[k].pos)
    {
    }
    forall m, n | 0 <= m < n < |d|
      ensures d[m].time < d[n].time
    {
      NominalMonotone(now, i, d[m].pos, d[n].pos);
    }
    forall k | 0 <= k < |d|
      ensures FloorHour(now) + (i + 1) * HourMs <= d[k].time < FloorHour(now) + (i + 2) * HourMs
    {
      NominalInHour(now, i, d[k].pos);
    }
  }

  lemma {:induction false} RoundSlotsOrdered(now: int, count: nat, i: nat)
    requires count <= 3 && i <= Days
    ensures Increasing(RoundSlotsFrom(now, count, i))
    ensures forall n :: 0 <= n < |RoundSlotsFrom(now, count, i)| ==>
              RoundSlotsFrom(now, count, i)[n].time >= FloorHour(now) + (i + 1) * HourMs
    decreases Days - i
  {
    if i < Days {
      var d: seq<Slot> := DaySlots(count, i, 0, DayStart(now, i));
      var w: seq<Slot> := RoundSlotsFrom(now, count, i + 1);
      assert RoundSlotsFrom(now, count, i) == d + w;
      DayOrdered(now, count, i);
      RoundSlotsOrdered(now, count, i + 1);
      ConcatIncreasing(d, w, FloorHour(now) + (i + 2) * HourMs);
      forall n | 0 <= n < |d + w|
        ensures (d + w)[n].time >= FloorHour(now) + (i + 1) * HourMs
      {
        if n < |d| {
          assert (d + w)[n] == d[n];
        } else {
          assert (d + w)[n] == w[n - |d|];
        }
      }
    }
  }

  /** For up to three reminders a day the slot times strictly increase in
      (day, position) order, and the first is later than `now`. */
  lemma SlotsIncreasing(now: int, count: nat)
    requires count <= 3
    ensures Increasing(Slots(now, count))
    ensures forall n :: 0 <= n < |Slots(now, count)| ==> Slots(now, count)[n].time > now
  {
    RoundSlotsOrdered(now, count, 0);
  }

  /** Within a day, consecutive slots are exactly 20 minutes apart, the first
      on minute 0 (up to four reminders a day; from five, `RollOverDrift` shows the carried hour breaking the spacing). */
  lemma SlotSpacing(now: int, count: nat, n: nat)
    requires count <= 4
    requires n + 1 < |Slots(now, count)|
    requires Slots(now, count)[n + 1].day == Slots(now, count)[n].day
    ensures Slots(now, count)[n + 1].time == Slots(now, count)[n].time + SlotSpacingMinutes * MinuteMs
    ensures Slots(now, count)[n].pos == 0 ==> Slots(now, count)[n].time % HourMs == 0
  {
    var slots := Slots(now, count);
    SlotsShape(now, count);
    SlotTimes(now, count);
    var a := slots[n];
    var b := slots[n + 1];
    assert a.index == n && b.index == n + 1;
    assert b.pos == a.pos + 1;
    NominalStep(now, a.day, a.pos);
  }

  /** Consecutive positions are 20 minutes apart, and position 0 is on the hour. */
  lemma NominalStep(now: int, i: nat, j: nat)
    ensures NominalTime(now, i, j + 1) == NominalTime(now, i, j) + SlotSpacingMinutes * MinuteMs
    ensures NominalTime(now, i, 0) % HourMs == 0
  {
    var k := now / HourMs + i + 1;
    assert FloorHour(now) == (now / HourMs) * HourMs;
    assert NominalTime(now, i, 0) == k * HourMs;
    ModByHour(0, k);
  }

  /** Unfolding `DaySlots` one stamp at a time. */
  lemma DaySlotsStep(count: nat, i: nat, j: nat, day: int, k: nat)
    requires j < count && k < |DaySlots(count, i, j, day)|
    ensures k == 0 ==> DaySlots(count, i, j, day)[k].time == Stamp(day, j)
    ensures k > 0 ==> DaySlots(count, i, j, day)[k] == DaySlots(count, i, j + 1, Stamp(day, j))[k - 1]
  {
  }

  /** With five or more reminders a day (only reachable through unchecked
      callback data), slot 3 carries the mutable `Date` into the next hour, so
      slot 4 is stamped at minute 80 of that hour: one hour later than
      `NominalTime`, 80 minutes after slot 3. */
  lemma {:induction false} RollOverDrift(now: int, count: nat)
    requires count >= 5
    ensures Slots(now, count)[3].time == NominalTime(now, 0, 3)
    ensures Slots(now, count)[4].time == NominalTime(now, 0, 4) + HourMs
  {
    var start := DayStart(now, 0);
    var h := FloorHour(now) + HourMs;
    ModByHour(now, 1);
    assert FloorHour(start) == h;
    var t0 := Stamp(start, 0);
    StampHour(start, 0);
    assert t0 == h && FloorHour(t0) == h;
    var t1 := Stamp(t0, 1);
    StampHour(t0, 1);
    assert t1 == h + 20 * MinuteMs && FloorHour(t1) == h;
    var t2 := Stamp(t1, 2);
    StampHour(t1, 2);
    assert t2 == h + 40 * MinuteMs && FloorHour(t2) == h;
    var t3 := Stamp(t2, 3);
    StampHour(t2, 3);
    assert t3 == h + 60 * MinuteMs && FloorHour(t3) == h + HourMs;
    var t4 := Stamp(t3, 4);
    assert t4 == h + HourMs + 80 * MinuteMs;
    RoundSlotsShape(now, count, 0);
    DaySlotsShape(count, 0, 0, start);
    var d: seq<Slot> := DaySlots(count, 0, 0, start);
    assert Slots(now, count) == d + RoundSlotsFrom(now, count, 1);
    assert Slots(now, count)[3] == d[3] && Slots(now, count)[4] == d[4];
    DaySlotsStep(count, 0, 0, start, 3);
    DaySlotsStep(count, 0, 1, t0, 2);
    DaySlotsStep(count, 0, 2, t1, 1);
    DaySlotsStep(count, 0, 3, t2, 0);
    assert d[3].time == t3;
    DaySlotsStep(count, 0, 0, start, 4);
    DaySlotsStep(count, 0, 1, t0, 3);
    DaySlotsStep(count, 0, 2, t1, 2);
    DaySlotsStep(count, 0, 3, t2, 1);
    DaySlotsStep(count, 0, 4, t3, 0);
    assert d[4].time == t4;
  }

  /** `n == q * d + r` with `0 <= r < d` determines quotient and remainder (for the divisors 1 to 4). */
  lemma DivModOf(n: int, q: int, r: int, d: int)
    requires 1 <= d <= 4 && 0 <= r < d && n == q * d + r
    ensures n / d == q && n % d == r
  {
    if d == 1 {
    } else if d == 2 {
    } else if d == 3 {
    } else {
    }
  }

  /** Slot `n` alone: its day and position are `n / count` and `n % count`. */
  lemma SlotTimeAt(now: int, count: nat, n: nat)
    requires 1 <= count <= 4 && n < Days * count
    ensures Slots(now, count)[n].time == NominalTime(now, n / count, n % count)
  {
    var sl := Slots(now, count)[n];
    SlotsShape(now, count);
    SlotTimes(now, count);
    assert n == sl.day * count + sl.pos && sl.pos < count;
    assert sl.time == NominalTime(now, sl.day, sl.pos);
    DivModOf(n, sl.day, sl.pos, count);
  }

  /** Slot `n` is due at `NominalTime(now, n / count, n % count)`. */
  predicate DueByIndex(slots: seq<Slot>, now: int, count: nat)
    requires count > 0
  {
    forall n :: 0 <= n < |slots| ==> slots[n].time == NominalTime(now, n / count, n % count)
  }

  /** Slot `n` of a batch of 1 to 4 reminders a day is due at `NominalTime(now, n / count, n % count)`. */
  lemma SlotTimesByIndex(now: int, count: nat)
    requires 1 <= count <= 4
    ensures DueByIndex(Slots(now, count), now, count)
  {
    var slots := Slots(now, count);
    forall n | 0 <= n < |slots|
      ensures slots[n].time == NominalTime(now, n / count, n % count)
    {
      SlotTimeAt(now, count, n);
    }
  }

  /** With four reminders a day the fourth slot of a round is on the next
      hour, the same instant as the first slot of the following round: the
      two reminders fire together, and the times no longer strictly increase. */
  lemma FourADayCollide(now: int)
    ensures |Slots(now, 4)| == 28
    ensures Slots(now, 4)[3].time == Slots(now, 4)[4].time
    ensures Slots(now, 4)[3].time == FloorHour(now) + 2 * HourMs
  {
    SlotTimeAt(now, 4, 3);
    SlotTimeAt(now, 4, 4);
  }
}

=== FILE: store.dfy ===
/** The persistent state of the bot (src/database.ts), with Firestore replaced
    by three maps: user profiles, chat transcripts and reminder records. */
module Store {
  import opened Base

  type UserId = string

  /** Transcript topics used by the coach; `ChatTopic` is the default. */
  const ChatTopic: string := "chat"
  const JournalTopic: string := "morning-journal"

  /** A `Users/{id}` document. `step`: 0 awaiting name, 1 awaiting reminder
      count, 2 free chat, 3 journal flow. `createdAt` in epoch milliseconds. */
  datatype Profile = Profile(id: UserId, name: string, step: int, createdAt: int)

  /** The fields an `updateUser` call supplies; absent fields are left as they are. */
  datatype ProfilePatch = ProfilePatch(id: Option<UserId>, name: Option<string>, step: Option<int>, createdAt: Option<int>)

  /** One turn of a transcript, opaque to the bot beyond being stored and handed back. */
  datatype Content = Content(role: string, text: string)
  type History = seq<Content>

  /** `reminder-{user}-{index}-{random}`: the random part is an opaque suffix. */
  datatype ReminderId = ReminderId(user: UserId, index: nat, suffix: string)

  /** A `Users/{user}/Reminders/{id}` document: when it fires and what it says. */
  datatype Reminder = Reminder(id: ReminderId, date: int, text: string)

  /** Transcripts live under the flattened key `{user}-{topic}`. */
  datatype Store = Store(
    users: map<UserId, Profile>,
    histories: map<string, History>,
    reminders: map<(UserId, ReminderId), Reminder>)

  const Empty: Store := Store(map[], map[], map[])

  /** Every reminder document carries, in its `id` field, the id it is stored under. */
  predicate Wf(s: Store) {
    forall k :: k in s.reminders ==> s.reminders[k].id == k.1
  }

  // ---------------------------------------------------------------------------
  // Profiles

  /** `getUser`: the profile, or nothing when no document exists. */
  function GetUser(s: Store, u: UserId): (r: Option<Profile>)
    ensures r.Some? <==> u in s.users
    ensures r.Some? ==> r.value == s.users[u]
  {
    if u in s.users then Some(s.users[u]) else None
  }

  /** `createUser`: writes (or overwrites) the profile with step 0. */
  function CreateUser(s: Store, u: UserId, name: string, now: int): (r: Store)
    ensures GetUser(r, u) == Some(Profile(u, name, 0, now))
    ensures forall v :: v != u ==> GetUser(r, v) == GetUser(s, v)
    ensures r.histories == s.histories && r.reminders == s.reminders
  {
    s.(users := s.users[u := Profile(u, name, 0, now)])
  }

  /** Every field of `p`: the handlers always pass their whole profile object. */
  function Whole(p: Profile): ProfilePatch {
    ProfilePatch(Some(p.id), Some(p.name), Some(p.step), Some(p.createdAt))
  }

  function Patched(p: Profile, patch: ProfilePatch): Profile {
    Profile(patch.id.GetOr(p.id), patch.name.GetOr(p.name), patch.step.GetOr(p.step), patch.createdAt.GetOr(p.createdAt))
  }

  /** `updateUser`: a Firestore update, which fails on a missing document and
      otherwise changes exactly the supplied fields. */
  function UpdateUser(s: Store, u: UserId, patch: ProfilePatch): (r: Result<Store>)
    ensures r.Err? <==> u !in s.users
    ensures r.Ok? ==> u in r.value.users
    ensures r.Ok? && patch.name.Some? ==> r.value.users[u].name == patch.name.value
    ensures r.Ok? && patch.name.None? ==> r.value.users[u].name == s.users[u].name
    ensures r.Ok? && patch.step.Some? ==> r.value.users[u].step == patch.step.value
    ensures r.Ok? && patch.step.None? ==> r.value.users[u].step == s.users[u].step
    ensures r.Ok? && patch.id.Some? ==> r.value.users[u].id == patch.id.value
    ensures r.Ok? && patch.id.None? ==> r.value.users[u].id == s.users[u].id
    ensures r.Ok? && patch.createdAt.Some? ==> r.value.users[u].createdAt == patch.createdAt.value
    ensures r.Ok? && patch.createdAt.None? ==> r.value.users[u].createdAt == s.users[u].createdAt
    ensures r.Ok? ==> forall v :: v != u ==> GetUser(r.value, v) == GetUser(s, v)
    ensures r.Ok? ==> r.value.histories == s.histories && r.value.reminders == s.reminders
  {
    if u in s.users then Ok(s.(users := s.users[u := Patched(s.users[u], patch)]))
    else Err("NOT_FOUND: no document to update")
  }

  /** Reading back a created profile gives step 0; nothing is found in the empty store. */
  lemma UserRoundTrip(s: Store, u: UserId, name: string, now: int)
    ensures GetUser(Empty, u).None?
    ensures GetUser(CreateUser(s, u, name, now), u).Some?
    ensures GetUser(CreateUser(s, u, name, now), u).value.step == 0
    ensures GetUser(CreateUser(s, u, name, now), u).value.name == name
  {
  }

  // ---------------------------------------------------------------------------
  // Transcripts

  function HistoryKey(u: UserId, topic: string): string {
    u + "-" + topic
  }

  predicate KnownTopic(topic: string) {
    topic == ChatTopic || topic == JournalTopic
  }

  lemma KeyEndsWithTopic(u: UserId, t: string)
    ensures |t| > 0 ==> HistoryKey(u, t)[|HistoryKey(u, t)| - 1] == t[|t| - 1]
  {
  }

  /** The flattened key separates users and topics: for the two topics in use,
      equal keys mean the same user and the same topic. */
  lemma {:induction false} HistoryKeyInjective(u1: UserId, t1: string, u2: UserId, t2: string)
    requires KnownTopic(t1) && KnownTopic(t2)
    ensures HistoryKey(u1, t1) == HistoryKey(u2, t2) <==> u1 == u2 && t1 == t2
  {
    if HistoryKey(u1, t1) == HistoryKey(u2, t2) {
      var k := HistoryKey(u1, t1);
      if t1 == t2 {
        assert |u1| == |u2|;
        assert u1 == k[..|u1|];
        assert u2 == k[..|u2|];
      } else {
        KeyEndsWithTopic(u1, t1);
        KeyEndsWithTopic(u2, t2);
        assert false;
      }
    }
  }

  /** `getChatHistory`: the stored transcript, or the empty one. */
  function GetChatHistory(s: Store, u: UserId, topic: string := ChatTopic): (h: History)
    ensures HistoryKey(u, topic) !in s.histories ==> h == []
  {
    var key := HistoryKey(u, topic);
    if key in s.histories then s.histories[key] else []
  }

  /** `setChatHistory`: replaces the whole transcript of `(u, topic)`. */
  function SetChatHistory(s: Store, u: UserId, topic: string, h: History): (r: Store)
    ensures GetChatHistory(r, u, topic) == h
    ensures r.users == s.users && r.reminders == s.reminders
  {
    s.(histories := s.histories[HistoryKey(u, topic) := h])
  }

  /** Writing one transcript leaves every other (user, topic) transcript as it
      was; in particular `chat` and `morning-journal` are separate entries. */
  lemma SetChatHistoryFrame(s: Store, u: UserId, topic: string, h: History, v: UserId, other: string)
    requires KnownTopic(topic) && KnownTopic(other)
    requires v != u || other != topic
    ensures GetChatHistory(SetChatHistory(s, u, topic, h), v, other) == GetChatHistory(s, v, other)
  {
    HistoryKeyInjective(u, topic, v, other);
  }

  // ---------------------------------------------------------------------------
  // Reminders

  /** `getReminders`: every reminder document of the user. */
  function GetReminders(s: Store, u: UserId): (rs: set<Reminder>)
    ensures forall id :: (u, id) in s.reminders ==> s.reminders[(u, id)] in rs
    ensures forall r :: r in rs ==> exists id :: (u, id) in s.reminders && s.reminders[(u, id)] == r
  {
    set k | k in s.reminders && k.0 == u :: s.reminders[k]
  }

  /** `setReminder`: writes the document `(u, id)`. */
  function SetReminder(s: Store, u: UserId, id: ReminderId, rec: Reminder): (r: Store)
    ensures rec in GetReminders(r, u)
    ensures forall k :: k != (u, id) ==> (k in r.reminders <==> k in s.reminders)
    ensures forall k :: k != (u, id) && k in s.reminders ==> r.reminders[k] == s.reminders[k]
    ensures r.users == s.users && r.histories == s.histories
  {
    s.(reminders := s.reminders[(u, id) := rec])
  }

  /** `deleteReminder`: removes the document `(u, id)` and nothing else. */
  function DeleteReminder(s: Store, u: UserId, id: ReminderId): (r: Store)
    ensures (u, id) !in r.reminders
    ensures forall k :: k != (u, id) ==> (k in r.reminders <==> k in s.reminders)
    ensures forall k :: k in r.reminders ==> r.reminders[k] == s.reminders[k]
    ensures r.users == s.users && r.histories == s.histories
  {
    s.(reminders := s.reminders - {(u, id)})
  }

  /** A written record is read back, and other users' reminders do not change. */
  lemma SetReminderRoundTrip(s: Store, u: UserId, id: ReminderId, rec: Reminder, v: UserId)
    requires v != u
    ensures rec in GetReminders(SetReminder(s, u, id, rec), u)
    ensures GetReminders(SetReminder(s, u, id, rec), v) == GetReminders(s, v)
    ensures GetReminders(DeleteReminder(s, u, id), v) == GetReminders(s, v)
  {
    var a := SetReminder(s, u, id, rec);
    var b := DeleteReminder(s, u, id);
    assert GetReminders(a, v) == GetReminders(s, v) by {
      forall x | x in GetReminders(a, v) ensures x in GetReminders(s, v) {
        var k :| k in a.reminders && k.0 == v && a.reminders[k] == x;
      }
    }
    assert GetReminders(b, v) == GetReminders(s, v) by {
      forall x | x in GetReminders(s, v) ensures x in GetReminders(b, v) {
        var k :| k in s.reminders && k.0 == v && s.reminders[k] == x;
        assert k in b.reminders;
      }
    }
  }
}

=== FILE: text.dfy ===
/** The JavaScript string operations the handlers rely on: `startsWith`,
    `split` with a non-empty string separator, and `trim`. */
module Text {

  predicate StartsWith(s: string, prefix: string) {
    |prefix| <= |s| && s[..|prefix|] == prefix
  }

  /** `sep` occurs in `s` at position `i`. */
  predicate OccursAt(s: string, sep: string, i: int) {
    0 <= i && i + |sep| <= |s| && s[i..i + |sep|] == sep
  }

  predicate Contains(s: string, sep: string) {
    exists i :: 0 <= i <= |s| && OccursAt(s, sep, i)
  }

  /** The inverse of `split`: the pieces glued back with the separator. */
  function Join(pieces: seq<string>, sep: string): string
    requires |pieces| > 0
  {
    if |pieces| == 1 then pieces[0] else pieces[0] + sep + Join(pieces[1..], sep)
  }

  /** `s.split(sep)`: scanning left to right, every occurrence of `sep` that
      does not overlap an earlier one ends a piece. */
  function Split(s: string, sep: string): (pieces: seq<string>)
    requires |sep| > 0
    ensures |pieces| >= 1
    decreases |s|
  {
    if |s| < |sep| then [s]
    else if s[..|sep|] == sep then [""] + Split(s[|sep|..], sep)
    else
      var rest := Split(s[1..], sep);
      [[s[0]] + rest[0]] + rest[1..]
  }

  /** The first piece of `s` is a prefix of it. */
  lemma {:induction false} FirstPiecePrefix(s: string, sep: string)
    requires |sep| > 0
    ensures |Split(s, sep)[0]| <= |s| && s[..|Split(s, sep)[0]|] == Split(s, sep)[0]
    decreases |s|
  {
    if |s| < |sep| {
    } else if s[..|sep|] == sep {
    } else {
      FirstPiecePrefix(s[1..], sep);
      var p := Split(s[1..], sep)[0];
      assert Split(s, sep)[0] == [s[0]] + p;
      assert s[1..][..|p|] == p;
      assert s[..|p| + 1] == [s[0]] + s[1..][..|p|];
    }
  }

  /** Round trip: joining the pieces of `s` with `sep` gives back `s`. */
  lemma {:induction false} JoinSplit(s: string, sep: string)
    requires |sep| > 0
    ensures Join(Split(s, sep), sep) == s
    decreases |s|
  {
    if |s| < |sep| {
    } else if s[..|sep|] == sep {
      var tail := s[|sep|..];
      JoinSplit(tail, sep);
      assert Split(s, sep) == [""] + Split(tail, sep);
      assert s == sep + tail;
    } else {
      var rest := Split(s[1..], sep);
      JoinSplit(s[1..], sep);
      JoinCons(s[0], rest, sep);
      assert s == [s[0]] + s[1..];
    }
  }

  /** Gluing a character onto the first piece glues it onto the joined string. */
  lemma JoinCons(c: char, pieces: seq<string>, sep: string)
    requires |pieces| > 0
    ensures Join([[c] + pieces[0]] + pieces[1..], sep) == [c] + Join(pieces, sep)
  {
    var glued := [[c] + pieces[0]] + pieces[1..];
    assert glued[0] == [c] + pieces[0];
    if |pieces| > 1 {
      assert glued[1..] == pieces[1..];
    }
  }

  /** No piece contains the separator. */
  lemma {:induction false} PiecesAvoidSeparator(s: string, sep: string)
    requires |sep| > 0
    ensures forall k :: 0 <= k < |Split(s, sep)| ==> !Contains(Split(s, sep)[k], sep)
    decreases |s|
  {
    var pieces := Split(s, sep);
    if |s| < |sep| {
      forall i | OccursAt(s, sep, i) ensures false {
      }
    } else if s[..|sep|] == sep {
      PiecesAvoidSeparator(s[|sep|..], sep);
      forall k | 0 <= k < |pieces| ensures !Contains(pieces[k], sep) {
        if k == 0 {
          forall i | OccursAt(pieces[0], sep, i) ensures false {
          }
        } else {
          assert pieces[k] == Split(s[|sep|..], sep)[k - 1];
        }
      }
    } else {
      PiecesAvoidSeparator(s[1..], sep);
      FirstPiecePrefix(s[1..], sep);
      var rest := Split(s[1..], sep);
      forall k | 0 <= k < |pieces| ensures !Contains(pieces[k], sep) {
        if k == 0 {
          FirstPieceAvoids(s, sep, rest[0]);
        } else {
          assert pieces[k] == rest[k];
        }
      }
    }
  }

  /** The step case for the first piece: `s` does not start with `sep`, and
      `p` is a prefix of `s[1..]` free of `sep`. */
  lemma FirstPieceAvoids(s: string, sep: string, p: string)
    requires |sep| > 0 && |sep| <= |s| && s[..|sep|] != sep
    requires |p| <= |s| - 1 && s[1..][..|p|] == p && !Contains(p, sep)
    ensures !Contains([s[0]] + p, sep)
  {
    var q := [s[0]] + p;
    assert q == s[..|p| + 1];
    forall i | OccursAt(q, sep, i) ensures false {
      if i > 0 {
        assert q[i..i + |sep|] == p[i - 1..i - 1 + |sep|];
        assert OccursAt(p, sep, i - 1);
      }
    }
  }

  /** A string without the separator is one piece. */
  lemma {:induction false} SplitWithout(s: string, sep: string)
    requires |sep| > 0 && !Contains(s, sep)
    ensures Split(s, sep) == [s]
    decreases |s|
  {
    if |s| >= |sep| {
      assert !OccursAt(s, sep, 0);
      assert !Contains(s[1..], sep) by {
        forall i | OccursAt(s[1..], sep, i) ensures false {
          assert s[1..][i..i + |sep|] == s[i + 1..i + 1 + |sep|];
          assert OccursAt(s, sep, i + 1);
        }
      }
      SplitWithout(s[1..], sep);
      assert [s[0]] + s[1..] == s;
    }
  }

  /** A string that starts with `sep` splits into the empty string and the
      pieces of the remainder. */
  lemma SplitLeading(s: string, sep: string)
    requires |sep| > 0 && StartsWith(s, sep)
    ensures Split(s, sep) == [""] + Split(s[|sep|..], sep)
  {
  }

  /** `p + sep + rest`, where `p` holds no character of the one-character
      separator: `p` is the first piece and `rest` supplies the others. */
  lemma {:induction false} SplitAfter(p: string, c: char, rest: string)
    requires forall i :: 0 <= i < |p| ==> p[i] != c
    ensures Split(p + [c] + rest, [c]) == [p] + Split(rest, [c])
    decreases |p|
  {
    var s := p + [c] + rest;
    if |p| == 0 {
      assert s == [c] + rest;
      assert s[1..] == rest;
    } else {
      assert s[0] == p[0];
      assert s[..1] != [c];
      assert s[1..] == p[1..] + [c] + rest;
      SplitAfter(p[1..], c, rest);
      assert [s[0]] + p[1..] == p;
    }
  }

  /** The characters of `s` before the first `c`, or the whole of `s`. */
  function Before(s: string, c: char): (p: string)
    ensures |p| <= |s| && p == s[..|p|]
    ensures forall i :: 0 <= i < |p| ==> p[i] != c
    ensures |p| < |s| ==> s[|p|] == c
  {
    if |s| == 0 || s[0] == c then "" else [s[0]] + Before(s[1..], c)
  }

  /** The first piece of a split on one character is the text before its
      first occurrence. */
  lemma FirstPieceBefore(s: string, c: char)
    ensures Split(s, [c])[0] == Before(s, c)
  {
    var p := Before(s, c);
    if |p| < |s| {
      assert s == p + [c] + s[|p| + 1..];
      SplitAfter(p, c, s[|p| + 1..]);
    } else {
      assert p == s;
      assert !Contains(s, [c]) by {
        forall i | 0 <= i <= |s| && OccursAt(s, [c], i) ensures false {
        }
      }
      SplitWithout(s, [c]);
    }
  }

  // ---------------------------------------------------------------------------
  // trim

  /** The characters `String.prototype.trim` removes: ECMAScript white space
      (tab, vertical tab, form feed, space, no-break space, byte order mark and
      the Unicode space separators) and line terminators. */
  predicate IsJsSpace(c: char) {
    || c == '\t' || c == '\U{000B}' || c == '\U{000C}' || c == ' ' || c == '\U{00A0}' || c == '\U{FEFF}'
    || c == '\U{1680}' || ('\U{2000}' <= c <= '\U{200A}') || c == '\U{202F}' || c == '\U{205F}' || c == '\U{3000}'
    || c == '\n' || c == '\r' || c == '\U{2028}' || c == '\U{2029}'
  }

  predicate AllSpace(s: string) {
    forall i :: 0 <= i < |s| ==> IsJsSpace(s[i])
  }

  function TrimStart(s: string): (r: string)
    ensures |r| <= |s| && r == s[|s| - |r|..]
    ensures AllSpace(s[..|s| - |r|])
    ensures r == [] || !IsJsSpace(r[0])
  {
    if |s| > 0 && IsJsSpace(s[0]) then
      var r := TrimStart(s[1..]);
      assert s[..|s| - |r|] == [s[0]] + s[1..][..|s| - 1 - |r|];
      r
    else s
  }

  function TrimEnd(s: string): (r: string)
    ensures |r| <= |s| && r == s[..|r|]
    ensures AllSpace(s[|r|..])
    ensures r == [] || !IsJsSpace(r[|r| - 1])
  {
    if |s| > 0 && IsJsSpace(s[|s| - 1]) then
      var r := TrimEnd(s[..|s| - 1]);
      assert s[|r|..] == s[..|s| - 1][|r|..] + [s[|s| - 1]];
      r
    else s
  }

  /** `trim`: the longest run of `s` that neither starts nor ends with white space. */
  function Trim(s: string): (r: string)
    ensures exists a :: 0 <= a && a + |r| <= |s| && r == s[a..a + |r|] && AllSpace(s[..a]) && AllSpace(s[a + |r|..])
    ensures r == [] || (!IsJsSpace(r[0]) && !IsJsSpace(r[|r| - 1]))
  {
    var t := TrimStart(s);
    var r := TrimEnd(t);
    TrimWitness(s, t, r);
    r
  }

  lemma TrimWitness(s: string, t: string, r: string)
    requires |t| <= |s| && t == s[|s| - |t|..] && AllSpace(s[..|s| - |t|])
    requires |r| <= |t| && r == t[..|r|] && AllSpace(t[|r|..])
    ensures var a := |s| - |t|;
            a + |r| <= |s| && r == s[a..a + |r|] && AllSpace(s[..a]) && AllSpace(s[a + |r|..])
  {
    var a := |s| - |t|;
    assert s[a + |r|..] == t[|r|..];
  }

  /** Trimming twice is trimming once. */
  lemma TrimIdempotent(s: string)
    ensures Trim(Trim(s)) == Trim(s)
  {
    var r := Trim(s);
    if r != [] {
      assert TrimStart(r) == r;
      assert TrimEnd(r) == r;
    }
  }
}
